=== FILE: README.md ===
# Study Sutra focus timer and to-do list, modelled in Dafny

This project models the bookkeeping of two pages of the Study Sutra study site.
The browser plumbing is left out.

- **Focus sessions** (`focus.js`). A signed-in user sets a goal as hours,
  minutes and seconds, and a one-second countdown runs against it. When the
  countdown completes, the user's record is credited: sessions today, the
  weekly total, the current and longest streak of consecutive study days, and
  the last session instant. Whenever the dashboard is shown, the record is
  reconciled with the clock: a weekly reset after seven whole days, a daily
  reset of the session count, and a streak break when the last session is
  older than yesterday.
- **To-do list** (`todo.js`). Tasks for one date: adding with validation and
  start-time ordering, clear-completed, toggle and delete by position, the
  All/Active/Completed filter, the progress counters and percentage, the CSV
  export, the HTML escaping of task fields, and the decision whether a
  reminder is scheduled and whether it notifies. The reminder reads the task
  object of the render that set it, so a toggle made on that render counts
  and later ones do not.

Instants are integer milliseconds. A calendar day is `instant / DAY`, so two
instants with equal `toDateString()` are instants on the same day number.
Those instants, the selected date's local midnight, and the answers to
`confirm` and notification permission are all parameters. Nothing reads a
clock.

Modules, one per concern:

| file | module | what it holds |
|---|---|---|
| `wrappers.dfy` | `Wrappers` | `Option` and `Result` |
| `arith.dfy` | `Arith` | two facts about division and multiplication |
| `text.dfy` | `Text` | digit strings, `padStart(2, '0')`, `split`/`join` on one character, `trim`, character order |
| `focus.dfy` | `Focus` | the user record, its default, the reconcile and completion updates, the goal and `formatTime` |
| `timer.dfy` | `Timer` | the countdown as a tick-step state machine |
| `app.dfy` | `FocusApp` | the page: sign-in flag, record and countdown together |
| `streak.dfy` | `Streak` | a reference definition of streaks over the set of session days, and the proof that the record follows it |
| `todo.dfy` | `Todo` | the task list, its handlers, the filter and the counters |
| `csv.dfy` | `Csv` | RFC 4180 section 2 writing with every field quoted, plus a reader |
| `export.dfy` | `TodoExport` | the export table and its importer |
| `html.dfy` | `Html` | `escapeHtml` and a decoder |
| `reminder.dfy` | `Reminder` | the reminder scheduling decision |

### Behaviour of the code worth knowing

- **Countdown length.** A goal of `g` seconds completes on the tick after the
  one that shows zero. The callback decrements while `remaining > 0`, and only
  a callback that finds `remaining == 0` completes (`focus.js:288-298`). So a
  session of `g` seconds needs `g + 1` callbacks (`Timer.CountdownCompletes`,
  `Timer.TwentyFiveMinuteSession`).
- **Sessions today across midnight.** `sessionComplete` adds one to
  `sessionsToday` without first resetting it when the day has changed
  (`focus.js:322`). The reconcile that follows keeps the count, because the
  last session is now today (`focus.js:231`). So a session that completes just
  after midnight continues yesterday's count instead of starting at 1.
  `Focus.SessionsTodayCarriesAcrossMidnight` states this. The model keeps the
  code's behaviour.
- **A session that completes when the weekly reset is due loses its credit.**
  `sessionComplete` adds the goal to the weekly total (`focus.js:320`), and the
  dashboard shown right after it reconciles the record (`focus.js:350`). When
  seven days have passed since the last reset, that reconcile zeroes the total,
  the new credit included (`FocusApp.TickApp`).
- **The weekly total** is kept in whole goal seconds. The page keeps it in
  fractional hours (`goalSeconds / 3600`).

## Model

| member | source | states |
|---|---|---|
| Focus.DefaultRecord | focus.js:19-26 | A fresh record has every counter at zero, the last session at the epoch and the weekly reset at the moment of creation. |
| Focus.Reconcile | focus.js:218-239 | The weekly total is zeroed and the reset instant moved to now exactly when seven whole days have passed. With the last session today, nothing daily changes. With it yesterday, only the session count is zeroed. On any other day, the session count and the current streak are zeroed. The longest streak is never touched, so "longest >= current" is preserved. |
| Focus.WeekThreshold | focus.js:221-225 | The floored day count since the last reset reaches 7 exactly when the elapsed milliseconds reach seven days. |
| Focus.ReconcileIdempotent | focus.js:218-239 | Reconciling twice at the same instant gives the same record as reconciling once. |
| Focus.NoWeeklyResetBeforeSevenDays | focus.js:221-228 | Six days and twenty-three hours after a reset, the weekly total is kept. |
| Focus.FreshRecordReconcile | focus.js:19-26 | Reconciling the default record at any later instant leaves the current streak at 0. |
| Focus.Complete | focus.js:313-344 | Completion adds one session and the goal seconds, and sets the last session to now. The streak goes up by one after a session yesterday, stays the same after one today, and restarts at 1 otherwise. The longest streak becomes the maximum of the old longest and the new current, and the new streak is at least 1 unless both sessions fall on the same day with a zero streak. |
| Focus.StreakContinuity | focus.js:330-340 | Sessions on consecutive days after a gap build a streak of 1, then 2, and the longest streak keeps up. |
| Focus.SessionsTodayCarriesAcrossMidnight | focus.js:320-322 | A completion on the day after the last session continues that day's session count: 3 becomes 4, not 1. |
| Focus.GoalSeconds | focus.js:384-393 | Fields that do not parse count as zero. The goal is `hrs*3600 + mins*60 + secs`, accepted exactly when it is positive, and otherwise refused as an invalid goal. |
| Focus.GoalDisplay | focus.js:384-399 | A goal typed with minutes and seconds below 60 starts the countdown at exactly the hours, minutes and seconds typed. |
| Focus.Decompose | focus.js:203-207 | The hours, minutes and seconds shown recombine to the total, with minutes and seconds below 60. |
| Focus.FormatTime | focus.js:203-209 | The display is at least eight characters and ends in two colon-separated two-digit fields. |
| Focus.FormatTimeFields | focus.js:203-209 | The display's three fields read back as the hours, minutes and seconds of the total, so the minutes and seconds shown are below 60. |
| Focus.DecomposeUnique | focus.js:203-207 | The decomposition is the only one with minutes and seconds below 60. |
| Focus.FormatTimeRoundTrip | focus.js:203-209 | The `HH:MM:SS` display reads back as the number of seconds it shows. |
| Focus.FormatTimeWidth | focus.js:208-209 | Below 100 hours the display is exactly eight characters, each field zero-padded to two digits. |
| Text.Pad2 | focus.js:207 | A padded field is a digit string of at least two characters that reads back as the number, and exactly two characters below 100. |
| Timer.Arm | focus.js:395-397 | A new goal sets both the goal and the remaining seconds to it and clears the pause flag. |
| Timer.Start | focus.js:284-285 | Starting while an interval exists changes nothing. Otherwise the countdown starts ticking with its fields unchanged. |
| Timer.TogglePause | focus.js:302-303 | The pause flag flips and nothing else changes. |
| Timer.Cancel | focus.js:353-359 | Ending a session stops the ticking and clears the pause flag without touching the countdown. |
| Timer.Tick | focus.js:288-299 | A paused tick, or one with no interval, changes nothing. A running tick with time left takes one second off. A running tick that finds no time left completes and stops the interval. The remaining time never goes negative. |
| Timer.AtMostOneCompletion | focus.js:296-298 | Whatever ticks, toggles and cancels arrive, a session completes at most once, and never when no interval was running. |
| Timer.RunKeepsWellFormed | focus.js:288-299 | No sequence of events takes the remaining seconds below zero. |
| Timer.CountdownCompletes | focus.js:288-299 | From `r` remaining seconds, `n <= r` ticks leave `r - n` seconds and no completion, and any more ticks complete exactly once. |
| Timer.PausedTicksDropped | focus.js:289 | Ticks while paused change nothing. |
| Timer.CancelStopsTicking | focus.js:353-359 | After an end-session, later ticks neither count down nor complete. |
| Timer.TwentyFiveMinuteSession | focus.js:288-299 | A 1500-second goal shows zero after 1500 ticks and completes on the 1501st. |
| Timer.CancelAfterFiveMinutes | focus.js:353-359 | Ending a 1500-second session after 300 ticks leaves 1200 seconds and never completes it. |
| FocusApp.ShowDashboard | focus.js:250-257 | Showing the dashboard replaces a signed-in user's record by its reconcile at now, which can only lower its counters. A signed-out page is unchanged. |
| FocusApp.ShowTimer | focus.js:378-411 | A signed-out user is refused, and so is a goal that is not positive. A signed-in user with a positive goal is accepted: the record is kept and the countdown starts from the goal, unpaused. |
| FocusApp.TickApp | focus.js:288-350 | Only the completing tick of a signed-in user changes the record; a signed-out page keeps it, since `sessionComplete` throws on the missing record. That tick adds one session, stamps now, sets the current and longest streak exactly as `Focus.Complete` does, and stops the countdown. The weekly total grows by the goal, except when the weekly reset is due: then the reconcile of the refreshed dashboard zeroes it, credit included. |
| FocusApp.TogglePauseApp | focus.js:302-303 | Pausing or resuming flips the pause flag and leaves the record and the remaining seconds alone. |
| FocusApp.EndSession | focus.js:353-361 | Declining the confirmation changes nothing. Confirming cancels the countdown without crediting the session and refreshes the dashboard: a signed-in record becomes its reconcile at now, and a signed-out one is kept. No counter grows. |
| FocusApp.RecordChangesOnlyOnCompletion | focus.js:288-294 | Ticks that only count down leave the record alone and take exactly one second each. |
| Streak.FinishPreserves | focus.js:313-344 | A completion keeps the record in step with the log of completion days: the longest streak is the longest run, and the current streak is the run ending on the last session day. |
| Streak.RefreshPreserves | focus.js:218-239 | A reconcile keeps the record in step with the log. |
| Streak.LongestAfterFinish | focus.js:339-342 | Adding a newest session day whose run has length `c` makes the longest run `max(longest, c)`. |
| Streak.ReplayTracks | focus.js:218-344 | Starting from the default record, any time-ordered history of completions and dashboard refreshes yields a record in step with its days. |
| Streak.StreakMeaning | focus.js:218-344 | After any history and a dashboard refresh, the longest streak is the longest run of consecutive session days. The current streak is the run ending on the last session day when that day is today or yesterday, and 0 otherwise. |
| Todo.GetTasks | todo.js:249-251 | A date with nothing stored has no tasks; otherwise the stored list is returned. |
| Todo.SaveTasks | todo.js:253-255 | Saving stores the list under its date and leaves every other date's list as it was. |
| Todo.SaveThenGet | todo.js:249-255 | Reading a date just saved gives the saved list, and other dates keep theirs. |
| Todo.Insert | todo.js:47-48 | Inserting keeps a start-time-ordered list ordered and adds exactly the new task. |
| Todo.InsertShape | todo.js:47-48 | The new task goes in after every task that starts no later than it, so equal start times keep their order. |
| Todo.SortByStart | todo.js:48 | Sorting yields an ordered permutation of the list. |
| Todo.NewTask | todo.js:38-47 | The new task is not completed, carries the start time, category and priority as given, and has its text trimmed: no white space at either end, never longer than the input. |
| Text.Trim | todo.js:38 | Trimming removes exactly the white space at both ends: the result is the middle of the input, neither end of it is white space, and it is empty exactly when the input is all white space. |
| Todo.AddTask | todo.js:37-49 | Adding is refused exactly when the trimmed text is empty or the date is missing. Otherwise the result is ordered by start time, holds the old tasks plus one new uncompleted task, and, for an ordered list, is the list with the task spliced in at its place. |
| Todo.AddOrderExample | todo.js:37-49 | Adding tasks at 09:00, with no time, and at 07:30 gives the order: no time, 07:30, 09:00. |
| Todo.ClearCompleted | todo.js:84-87 | Clear-completed keeps exactly the tasks that are not completed. |
| Todo.ClearKeepsOrder | todo.js:84-87 | Clearing completed tasks keeps the start-time order. |
| Todo.ClearLeavesPending | todo.js:84-87 | The number of tasks left is the total minus the number done. |
| Todo.Delete | todo.js:216 | Deleting position `i` removes exactly that task and keeps the others in order. A position past the end removes nothing. |
| Todo.Toggle | todo.js:195-203 | Toggling flips the completed flag of the addressed task only. Every other task, and every other field, is unchanged. |
| Todo.ToggleTwice | todo.js:203 | Toggling the same task twice restores the list. |
| Todo.HandlersKeepOrder | todo.js:84-87 | Toggle, delete and clear-completed all keep a list in start-time order. |
| Todo.View | todo.js:172-174 | The view lists, in increasing order, positions whose tasks the filter lets through. |
| Todo.ViewComplete | todo.js:172-174 | Every task the filter lets through is in the view. |
| Todo.ViewAll | todo.js:172-174 | "All" shows every task, in order. |
| Todo.ViewActive | todo.js:173 | "Active" shows exactly what clear-completed would keep, in the same order. |
| Todo.ViewCompletedCount | todo.js:174 | "Completed" shows as many tasks as are done. |
| Todo.DoneCount | todo.js:167-170 | The done count is the whole list exactly when every task is completed, and zero exactly when none is. |
| Todo.RoundPercent | todo.js:232 | The percentage is `done/total*100` rounded half up, lies in 0..100, is 0 with nothing done and 100 with everything done. |
| Todo.StatsOf | todo.js:232-239 | Done plus pending is the total. The percentage is 0 for an empty list, lies in 0..100, and is 100 when every task is completed. |
| Todo.PercentRounding | todo.js:232 | One of three done shows 33, two of three 67, one of eight 13. |
| Csv.ReadEscaped | todo.js:105 | Reading a quoted field undoes the doubling of quotes up to the closing quote. |
| Csv.EscapeQuotes | todo.js:105 | Doubling the quotes never shortens a field. |
| Csv.QuoteField | todo.js:105 | A written field begins and ends with a double quote. |
| Csv.WriteRecord | todo.js:105 | A written record is non-empty and begins with the opening quote of its first field. |
| Csv.WriteDocument | todo.js:105 | A written document begins with its first record. |
| Csv.FieldRoundTrip | todo.js:105 | A field written on its own reads back as the same text. |
| Csv.ReadWrittenRecord | todo.js:105 | A record of quoted, comma-separated fields reads back as the same fields. |
| Csv.DocumentRoundTrip | todo.js:105 | A document of records separated by CRLF reads back as the same records, in order. |
| Csv.EscapeConcat | todo.js:105 | Quote doubling works character by character, keeping the order. |
| Csv.NoQuoteUnchanged | todo.js:105 | A field without quotes is written unchanged between the enclosing quotes. |
| Csv.QuotedWord | todo.js:105 | A word in quotes inside a field, as in `Say "hi"`, has both quotes doubled, and the field is enclosed in quotes. |
| TodoExport.Table | todo.js:99-103 | The export table is the header followed by one five-column row per task. |
| TodoExport.Rows | todo.js:101-103 | There is one row per task, in stored order. |
| TodoExport.ExportCsv | todo.js:99-105 | The exported file begins with the header record. |
| TodoExport.TaskOfRow | todo.js:102 | A row reads back as a task exactly when it has five cells and a Yes/No completion cell. |
| TodoExport.RowsRoundTrip | todo.js:101-103 | The task rows read back as the tasks, in order. |
| TodoExport.ExportRoundTrip | todo.js:99-105 | Reading an exported file gives back the same tasks, in order, with every field and the completion flag. |
| TodoExport.CompletedColumn | todo.js:102 | The Completed column says Yes exactly for completed tasks and No exactly for the others. |
| TodoExport.EmptyExport | todo.js:99-105 | A date with no tasks exports the header line alone. |
| Html.EscapeHtml | todo.js:284-295 | The escaped text contains no `<`, `>` or `"`, and is never shorter than the input. The empty input gives the empty string. |
| Html.UnescapeEntity | todo.js:287-293 | Each of `&`, `<`, `>` and `"` becomes an entity that decodes back to it, and other characters stand for themselves. |
| Html.EscapeRoundTrip | todo.js:284-295 | Decoding the escaped text gives back the text, so nothing is lost or reordered. |
| Html.EscapeConcat | todo.js:286-294 | Escaping works character by character, keeping the order. |
| Html.PlainTextUnchanged | todo.js:286-294 | Text without any of the four special characters passes through unchanged. |
| Html.TagExample | todo.js:286-294 | A tag typed as task text comes out with `&lt;` and `&gt;` in place of its brackets. |
| Reminder.ClockNumber | todo.js:261 | A clock field is a number exactly when it is a digit string; the empty field is 0. |
| Reminder.ClockFields | todo.js:261 | A start time has hours and minutes exactly when its first two colon-separated parts are digit strings, and they are those parts' values. |
| Reminder.FireAt | todo.js:261-263 | The reminder instant exists exactly when the hours and minutes do, and is midnight plus those hours and minutes, never before midnight. |
| Reminder.Notifies | todo.js:270 | A notification needs permission and a task object that is not completed. |
| Reminder.SeenAtFire | todo.js:195-228 | The object the timer reads differs from the rendered task in the completed flag only, and differs exactly when that render toggled its position. |
| Reminder.FireSeesRenderToggle | todo.js:195-228 | The timer decides on the task at its position in the list as that render's toggle leaves it; a delete leaves the object alone. |
| Reminder.NotifiesIff | todo.js:195-270 | With permission, a reminder notifies exactly when its task was uncompleted at render time and not toggled on that render, or completed and unticked on it. |
| Reminder.TickedBeforeTimeSilent | todo.js:195-270 | A task ticked done on the render that set its reminder gets no notification. |
| Reminder.ReminderDelay | todo.js:258-268 | A reminder is scheduled only for a task with a start time that parses and whose instant on the selected date is strictly after now. The delay is then that instant minus now, and it is positive. |
| Reminder.Schedule | todo.js:169-229 | The render loop only schedules reminders for tasks the filter shows. Each timer carries that task, and its delay is the one `ReminderDelay` gives: the task has a start time that parses, and the delay is its instant minus now, which is positive. |
| Reminder.ScheduleComplete | todo.js:169-229 | Every shown task whose start time is still ahead gets its reminder, with the right delay. |
| Reminder.ActiveSkipsCompleted | todo.js:173-229 | Under the Active filter no completed task gets a reminder. |
| Reminder.CompletedFilterSilent | todo.js:174-270 | Under the Completed filter only completed tasks get reminders, so a reminder notifies exactly when permission is granted and its task is unticked on the render that set it. |
| Reminder.StaleReminderAfterDelete | todo.js:212-270 | A reminder keeps the task object its render captured: after the day's only task is deleted the list is empty, yet the reminder set earlier still notifies for that task. |
| Reminder.ClockRoundTrip | todo.js:261 | A two-digit `HH:MM` start time reads back as its hours and minutes. |
| Reminder.ScheduledIffAhead | todo.js:258-268 | A task at `HH:MM` is scheduled exactly when midnight plus those hours and minutes lies after now, with the delay being the difference. |
| Reminder.HourOnlyNeverScheduled | todo.js:261-268 | A start time without a minutes part gives NaN minutes and is never scheduled. |

## Left out

- Firebase sign-in, sign-out and the auth-state listener (`focus.js:84-198`, `focus.js:424-443`). The model has only the signed-in flag they set.
- All DOM work: element lookups, class toggles, text content, progress bars, and the 300 ms transition delays.
- Audio, `alert`, and the `confirm` dialog. The answer to `confirm` is a parameter of `FocusApp.EndSession`.
- `localStorage` and JSON. The focus record is a value and the task store is a map from date to list. A stored value that is not valid JSON makes `JSON.parse` throw, and that path is not modelled.
- `setInterval` and `setTimeout` are replaced by explicit tick events and by the delay value. Browsers fire delays above 2^31 - 1 ms at once; that is not modelled.
- Floating point. The weekly total is in whole seconds rather than fractional hours, `toFixed` is not modelled, and the countdown's progress-ring percentage (`focus.js:293-294`) is not modelled. The to-do percentage is computed exactly and rounded half up. The page rounds a floating-point quotient, which can differ: 23 of 40 done gives `23/40*100 = 57.49999999999999` there, shown as 57, where `Todo.RoundPercent` gives 58.
- Time zones, daylight saving and date-string parsing. A day is a fixed 86 400 000 ms, and the selected date's local midnight is a parameter. `new Date("YYYY-MM-DD")` reads the date as UTC midnight before `setHours` applies local time, so in zones behind UTC the reminder falls on the previous day. That is outside this model.
- `localeCompare` is modelled as lexicographic character order of the start times. For the `HH:MM` values of a time input, the two orders agree.
- `parseInt` on the goal fields is a parameter: each field is a number or "does not parse", which counts as zero. The model does not parse the strings.
- Reminder.ClockNumber: `Number()` also accepts surrounding white space, signs, decimals and hexadecimal. The model accepts digit strings only (the empty string is 0), which covers what a time input produces.
- Reminder.ReminderDelay: a re-render schedules the same reminder again. Each render is modelled on its own, and duplicates are not tracked.
- Reminder.Notifies: the model follows one render's timers and the one toggle or delete that can reach their task objects before the list is rendered again. It keeps no store of the timers of earlier renders, so the duplicate and stale notifications they give are shown only by the single-task case `Reminder.StaleReminderAfterDelete`.
- FocusApp.TickApp: the dashboard refresh after a completion is taken at the completion instant. In the page it runs after the completion alert is dismissed (`focus.js:348-350`), which can be later, even on another day; that later instant is not modelled.
- Notification permission is a parameter, and the notification text is not modelled.
- `escapeHtml` on `undefined` or `null` (also falsy, giving "") is not modelled, because task fields are strings in this model.
- `formatTime` on negative input is not modelled: the countdown never shows a negative number.
- `script.js` (navigation, theme toggle, contact form, search) and the theme toggle in `todo.js:118-159` are page decoration.
- Focus.Complete: "the streak is at least 1 afterwards" is stated only when the previous session was on another day or the streak was already positive. A record whose last session is today with a zero streak keeps the streak at 0, as the code does. The default record is such a record at any instant on the epoch's own day.

=== FILE: app.dfy ===
/**
 The focus page as a whole: who is signed in, the user's record and the
 countdown. Each handler of focus.js becomes a pure step on this state; the
 record in memory stands for the stored one, since every handler that changes
 it saves it straight away.
 */
module FocusApp {

  import opened Wrappers
  import opened Focus
  import opened Timer

  datatype App = App(loggedIn: bool, record: FocusRecord, session: Session)

  /** showDashboard / initializeDashboard: reconcile the record for a signed-in user. */
  function ShowDashboard(a: App, now: int): (a': App)
    ensures a'.loggedIn == a.loggedIn && a'.session == a.session
    ensures !a.loggedIn ==> a' == a
    ensures a.loggedIn ==> a'.record == Reconcile(a.record, now)
    ensures a'.record.longestStreak == a.record.longestStreak
    ensures a'.record.lastSessionDate == a.record.lastSessionDate
    ensures a'.record.sessionsToday <= a.record.sessionsToday
    ensures a'.record.weekSeconds <= a.record.weekSeconds
    ensures a'.record.currentStreak <= a.record.currentStreak
  {
    if a.loggedIn then a.(record := Reconcile(a.record, now)) else a
  }

  /**
   showTimer followed by startTimer: refuse a signed-out user or a goal that
   is not positive; otherwise load the goal and start the countdown.
   */
  function ShowTimer(a: App, hrs: Option<int>, mins: Option<int>, secs: Option<int>): (r: Result<App, GoalError>)
    ensures !a.loggedIn ==> r == Failure(NotLoggedIn)
    ensures a.loggedIn && GoalSeconds(hrs, mins, secs).Failure? ==> r == Failure(InvalidGoal)
    ensures a.loggedIn && GoalSeconds(hrs, mins, secs).Success? ==> r.Success?
    ensures r.Success? ==>
      && GoalSeconds(hrs, mins, secs).Success?
      && r.value.record == a.record && r.value.loggedIn
      && r.value.session.goalSeconds == GoalSeconds(hrs, mins, secs).value
      && r.value.session.remaining == r.value.session.goalSeconds > 0
      && !r.value.session.paused && r.value.session.ticking
  {
    if !a.loggedIn then Failure(NotLoggedIn)
    else
      match GoalSeconds(hrs, mins, secs)
      case Failure(e) => Failure(e)
      case Success(g) => Success(a.(session := Start(Arm(a.session, g))))
  }

  /**
   One interval callback. On the completing tick of a signed-in user the goal
   is credited (sessionComplete) and the dashboard is shown again, which
   reconciles the record. When the weekly reset is due, that reconcile wipes
   the credit just given. A signed-out page has no record loaded: the callback
   stops the countdown and sessionComplete throws before crediting anything.
   */
  function TickApp(a: App, now: int): (a': App)
    ensures !Tick(a.session).completed || !a.loggedIn ==> a'.record == a.record
    ensures Tick(a.session).completed && a.loggedIn ==>
      a'.record.weekSeconds ==
        (if now - a.record.lastWeeklyReset >= WEEK_DAYS * DAY then 0
         else a.record.weekSeconds + a.session.goalSeconds)
    ensures Tick(a.session).completed && a.loggedIn ==>
      && a'.record.sessionsToday == a.record.sessionsToday + 1
      && a'.record.lastSessionDate == now
      && StreakInvariant(a'.record)
      && (Day(a.record.lastSessionDate) != Day(now) || a.record.currentStreak >= 1 ==> a'.record.currentStreak >= 1)
      && !a'.session.ticking
    ensures Tick(a.session).completed && a.loggedIn ==>
      && a'.record.currentStreak == Complete(a.record, a.session.goalSeconds, now).currentStreak
      && a'.record.longestStreak == Complete(a.record, a.session.goalSeconds, now).longestStreak
    ensures a'.session == Tick(a.session).session
  {
    var st := Tick(a.session);
    if st.completed && a.loggedIn then
      var done := Complete(a.record, a.session.goalSeconds, now);
      ShowDashboard(a.(session := st.session, record := done), now)
    else
      a.(session := st.session)
  }

  /** togglePauseResume. */
  function TogglePauseApp(a: App): (a': App)
    ensures a'.record == a.record && a'.session.paused != a.session.paused
    ensures a'.session.remaining == a.session.remaining
  {
    a.(session := TogglePause(a.session))
  }

  /**
   endSession: unless the user backs out of the confirmation, stop the
   countdown and show the dashboard. No credit is given: no counter grows.
   */
  function EndSession(a: App, confirmed: bool, now: int): (a': App)
    ensures !confirmed ==> a' == a
    ensures confirmed ==> !a'.session.ticking && !a'.session.paused
    ensures confirmed ==>
      (a'.session == Cancel(a.session)
       && a'.record == (if a.loggedIn then Reconcile(a.record, now) else a.record))
    ensures a'.record.sessionsToday <= a.record.sessionsToday
    ensures a'.record.weekSeconds <= a.record.weekSeconds
    ensures a'.record.currentStreak <= a.record.currentStreak
    ensures a'.record.longestStreak == a.record.longestStreak
    ensures a'.record.lastSessionDate == a.record.lastSessionDate
  {
    if !confirmed then a else ShowDashboard(a.(session := Cancel(a.session)), now)
  }

  /** Only the completing tick changes the record; the other ticks leave it alone. */
  lemma {:induction false} RecordChangesOnlyOnCompletion(a: App, now: int, n: nat)
    requires a.session.ticking && !a.session.paused && 0 <= n <= a.session.remaining
    ensures TicksApp(a, now, n).record == a.record
    ensures TicksApp(a, now, n).session.remaining == a.session.remaining - n
    decreases n
  {
    if n > 0 {
      RecordChangesOnlyOnCompletion(TickApp(a, now), now, n - 1);
    }
  }

  /** n interval callbacks at the same instant. */
  function TicksApp(a: App, now: int, n: nat): (a': App)
    ensures n == 0 ==> a' == a
    decreases n
  {
    if n == 0 then a else TicksApp(TickApp(a, now), now, n - 1)
  }
}

=== FILE: arith.dfy ===
/** Facts about integer multiplication and division the day and percent arithmetic needs. */
module Arith {

  lemma DivMonotone(a: int, b: int, d: int)
    requires a <= b && d > 0
    ensures a / d <= b / d
  {
    assert a == d * (a / d) + a % d;
    assert b == d * (b / d) + b % d;
    assert d * (a / d) < d * (b / d + 1);
    MulCancel(d, a / d, b / d + 1);
  }

  lemma MulCancel(d: int, x: int, y: int)
    requires d > 0 && d * x < d * y
    ensures x < y
  {
    assert d * (y - x) > 0;
  }
}

=== FILE: csv.dfy ===
/**
 CSV text as the export button writes it, following section 2 of RFC 4180:
 every field enclosed in double quotes, each embedded quote doubled, fields
 separated by commas and records by CRLF. A reader for that shape is given
 beside the writer, and reading what was written recovers the records.
 */
module Csv {

  import opened Wrappers

  const QUOTE: char := '"'
  const CRLF: string := "\r\n"

  /** String(c).replace(/"/g, '""'). */
  function EscapeQuotes(s: string): (r: string)
    ensures |r| >= |s|
  {
    if s == [] then []
    else if s[0] == QUOTE then [QUOTE, QUOTE] + EscapeQuotes(s[1..])
    else [s[0]] + EscapeQuotes(s[1..])
  }

  /** One field as written: quote, escaped text, quote. */
  function QuoteField(s: string): (r: string)
    ensures |r| >= 2 && r[0] == QUOTE && r[|r| - 1] == QUOTE
  {
    [QUOTE] + EscapeQuotes(s) + [QUOTE]
  }

  /** One record: its quoted fields joined by commas. */
  function WriteRecord(fields: seq<string>): (r: string)
    requires |fields| >= 1
    ensures r != [] && r[0] == QUOTE
  {
    if |fields| == 1 then QuoteField(fields[0])
    else QuoteField(fields[0]) + "," + WriteRecord(fields[1..])
  }

  /** The document: records joined by CRLF, with no line break after the last. */
  function WriteDocument(records: seq<seq<string>>): (r: string)
    requires |records| >= 1 && forall i :: 0 <= i < |records| ==> |records[i]| >= 1
    ensures |r| >= |WriteRecord(records[0])| && r[..|WriteRecord(records[0])|] == WriteRecord(records[0])
  {
    if |records| == 1 then WriteRecord(records[0])
    else WriteRecord(records[0]) + CRLF + WriteDocument(records[1..])
  }

  // ----- Reading -----

  /**
   The text of a quoted field, given what follows its opening quote: a doubled
   quote stands for one quote, a single quote closes the field. Returns the
   text and what follows the closing quote, or None if the field never closes.
   */
  function ReadQuoted(s: string): (r: Option<(string, string)>)
    ensures r.Some? ==> |r.value.1| < |s|
  {
    if s == [] then None
    else if s[0] == QUOTE then
      if |s| >= 2 && s[1] == QUOTE then
        match ReadQuoted(s[2..])
        case None => None
        case Some((text, rest)) => Some(([QUOTE] + text, rest))
      else Some(([], s[1..]))
    else
      match ReadQuoted(s[1..])
      case None => None
      case Some((text, rest)) => Some(([s[0]] + text, rest))
  }

  function ReadField(s: string): (r: Option<(string, string)>)
    ensures r.Some? ==> |r.value.1| < |s|
  {
    if s != [] && s[0] == QUOTE then ReadQuoted(s[1..]) else None
  }

  function ReadRecord(s: string): (r: Option<(seq<string>, string)>)
    ensures r.Some? ==> |r.value.1| < |s|
    decreases |s|
  {
    match ReadField(s)
    case None => None
    case Some((field, rest)) =>
      if rest != [] && rest[0] == ',' then
        match ReadRecord(rest[1..])
        case None => None
        case Some((fields, rest')) => Some(([field] + fields, rest'))
      else Some(([field], rest))
  }

  function ReadDocument(s: string): (r: Option<seq<seq<string>>>)
    ensures r.Some? ==> |r.value| >= 1
    decreases |s|
  {
    match ReadRecord(s)
    case None => None
    case Some((record, rest)) =>
      if rest == [] then Some([record])
      else if |rest| >= 2 && rest[..2] == CRLF then
        match ReadDocument(rest[2..])
        case None => None
        case Some(records) => Some([record] + records)
      else None
  }

  // ----- Reading what was written -----

  /** Undoubling the quotes of an escaped field, up to its closing quote, gives back the field. */
  lemma {:induction false} ReadEscaped(x: string, rest: string)
    requires rest == [] || rest[0] != QUOTE
    ensures ReadQuoted(EscapeQuotes(x) + [QUOTE] + rest) == Some((x, rest))
  {
    if x == [] {
      ReadClosing(rest);
    } else {
      ReadEscaped(x[1..], rest);
      ReadEscapedStep(x, rest);
    }
  }

  lemma ReadClosing(rest: string)
    requires rest == [] || rest[0] != QUOTE
    ensures ReadQuoted(EscapeQuotes([]) + [QUOTE] + rest) == Some(([], rest))
  {
    assert EscapeQuotes([]) + [QUOTE] + rest == [QUOTE] + rest;
    assert ([QUOTE] + rest)[1..] == rest;
  }

  lemma ReadEscapedStep(x: string, rest: string)
    requires x != []
    requires ReadQuoted(EscapeQuotes(x[1..]) + [QUOTE] + rest) == Some((x[1..], rest))
    ensures ReadQuoted(EscapeQuotes(x) + [QUOTE] + rest) == Some((x, rest))
  {
    if x[0] == QUOTE {
      ReadDoubled(x, rest);
    } else {
      ReadPlain(x, rest);
    }
  }

  /** The escape of the first character, followed by the escape of the rest. */
  lemma EscapeHead(x: string, rest: string)
    requires x != []
    ensures EscapeQuotes(x) + [QUOTE] + rest
         == (if x[0] == QUOTE then [QUOTE, QUOTE] else [x[0]]) + (EscapeQuotes(x[1..]) + [QUOTE] + rest)
  {
  }

  lemma ReadDoubled(x: string, rest: string)
    requires x != [] && x[0] == QUOTE
    requires ReadQuoted(EscapeQuotes(x[1..]) + [QUOTE] + rest) == Some((x[1..], rest))
    ensures ReadQuoted(EscapeQuotes(x) + [QUOTE] + rest) == Some((x, rest))
  {
    var tail := EscapeQuotes(x[1..]) + [QUOTE] + rest;
    EscapeHead(x, rest);
    assert ([QUOTE, QUOTE] + tail)[2..] == tail;
    assert [x[0]] + x[1..] == x;
  }

  lemma ReadPlain(x: string, rest: string)
    requires x != [] && x[0] != QUOTE
    requires ReadQuoted(EscapeQuotes(x[1..]) + [QUOTE] + rest) == Some((x[1..], rest))
    ensures ReadQuoted(EscapeQuotes(x) + [QUOTE] + rest) == Some((x, rest))
  {
    var tail := EscapeQuotes(x[1..]) + [QUOTE] + rest;
    EscapeHead(x, rest);
    assert ([x[0]] + tail)[1..] == tail;
    assert [x[0]] + x[1..] == x;
  }

  /** A field written on its own reads back as the same text. */
  lemma FieldRoundTrip(x: string)
    ensures ReadField(QuoteField(x)) == Some((x, []))
  {
    ReadEscaped(x, []);
    assert QuoteField(x)[1..] == EscapeQuotes(x) + [QUOTE] + [];
  }

  lemma {:induction false} ReadWrittenRecord(fields: seq<string>, rest: string)
    requires |fields| >= 1
    requires rest == [] || (rest[0] != QUOTE && rest[0] != ',')
    ensures ReadRecord(WriteRecord(fields) + rest) == Some((fields, rest))
    decreases |fields|
  {
    var f := fields[0];
    if |fields| == 1 {
      ReadLastField(f, rest);
      assert WriteRecord(fields) + rest == QuoteField(f) + rest;
      assert fields == [f];
    } else {
      var more := WriteRecord(fields[1..]) + rest;
      ReadWrittenRecord(fields[1..], rest);
      ReadFieldThenComma(f, more);
      WriteRecordCons(fields, rest);
      ReadRecordCons(QuoteField(f) + ([','] + more), f, more, fields[1..], rest);
      assert [f] + fields[1..] == fields;
    }
  }

  lemma WriteRecordCons(fields: seq<string>, rest: string)
    requires |fields| >= 2
    ensures WriteRecord(fields) + rest == QuoteField(fields[0]) + ([','] + (WriteRecord(fields[1..]) + rest))
  {
  }

  lemma ReadLastField(f: string, rest: string)
    requires rest == [] || (rest[0] != QUOTE && rest[0] != ',')
    ensures ReadRecord(QuoteField(f) + rest) == Some(([f], rest))
  {
    var s := QuoteField(f) + rest;
    assert s[1..] == EscapeQuotes(f) + [QUOTE] + rest;
    ReadEscaped(f, rest);
  }

  lemma ReadFieldThenComma(f: string, more: string)
    ensures ReadField(QuoteField(f) + ([','] + more)) == Some((f, [','] + more))
  {
    var s := QuoteField(f) + ([','] + more);
    assert s[1..] == EscapeQuotes(f) + [QUOTE] + ([','] + more);
    ReadEscaped(f, [','] + more);
  }

  lemma ReadRecordCons(s: string, f: string, more: string, fields: seq<string>, rest: string)
    requires ReadField(s) == Some((f, [','] + more))
    requires ReadRecord(more) == Some((fields, rest))
    ensures ReadRecord(s) == Some(([f] + fields, rest))
  {
    assert ([','] + more)[1..] == more;
  }

  /** Reading the written document gives back every record, in order. */
  lemma {:induction false} DocumentRoundTrip(records: seq<seq<string>>)
    requires |records| >= 1 && forall i :: 0 <= i < |records| ==> |records[i]| >= 1
    ensures ReadDocument(WriteDocument(records)) == Some(records)
    decreases |records|
  {
    if |records| == 1 {
      ReadWrittenRecord(records[0], []);
      assert WriteRecord(records[0]) + [] == WriteRecord(records[0]);
      assert records == [records[0]];
    } else {
      var tail := WriteTail(records);
      DocumentRoundTrip(tail);
      ReadDocumentCons(records[0], WriteDocument(tail), tail);
      assert [records[0]] + tail == records;
    }
  }

  /** The document after its first record, as CRLF and the remaining records. */
  lemma WriteTail(records: seq<seq<string>>) returns (tail: seq<seq<string>>)
    requires |records| >= 2 && forall i :: 0 <= i < |records| ==> |records[i]| >= 1
    ensures tail == records[1..] && |tail| >= 1
    ensures forall i :: 0 <= i < |tail| ==> |tail[i]| >= 1
    ensures WriteDocument(records) == WriteRecord(records[0]) + (CRLF + WriteDocument(tail))
  {
    tail := records[1..];
    assert forall i :: 0 <= i < |tail| ==> tail[i] == records[i + 1];
  }

  lemma ReadDocumentCons(record: seq<string>, more: string, tail: seq<seq<string>>)
    requires |record| >= 1 && ReadDocument(more) == Some(tail)
    ensures ReadDocument(WriteRecord(record) + (CRLF + more)) == Some([record] + tail)
  {
    var rest := CRLF + more;
    ReadWrittenRecord(record, rest);
    assert rest != [] && rest[..2] == CRLF && rest[2..] == more;
  }

  /** Escaping works character by character, keeping the order. */
  lemma {:induction false} EscapeConcat(a: string, b: string)
    ensures EscapeQuotes(a + b) == EscapeQuotes(a) + EscapeQuotes(b)
  {
    if a != [] {
      assert (a + b)[0] == a[0] && (a + b)[1..] == a[1..] + b;
      EscapeConcat(a[1..], b);
    } else {
      assert a + b == b;
    }
  }

  /** A field without quotes is written as it is, between the enclosing quotes. */
  lemma {:induction false} NoQuoteUnchanged(s: string)
    requires QUOTE !in s
    ensures EscapeQuotes(s) == s
  {
    if s != [] {
      assert s[0] != QUOTE && QUOTE !in s[1..];
      NoQuoteUnchanged(s[1..]);
      assert [s[0]] + s[1..] == s;
    }
  }

  /**
   A quoted word inside a field, as in Say "hi": the quotes around the word
   are doubled and the whole field is enclosed in quotes.
   */
  lemma QuotedWord(before: string, word: string)
    requires QUOTE !in before && QUOTE !in word
    ensures QuoteField(before + [QUOTE] + word + [QUOTE])
         == [QUOTE] + before + [QUOTE, QUOTE] + word + [QUOTE, QUOTE] + [QUOTE]
  {
    EscapeWord(before, word);
  }

  lemma EscapeWord(before: string, word: string)
    requires QUOTE !in before && QUOTE !in word
    ensures EscapeQuotes(before + [QUOTE] + word + [QUOTE]) == before + [QUOTE, QUOTE] + word + [QUOTE, QUOTE]
  {
    var e := [QUOTE, QUOTE];
    EscapeQuote();
    EscapeConcat(before, [QUOTE]);
    NoQuoteUnchanged(before);
    assert EscapeQuotes(before + [QUOTE]) == before + e;
    EscapeConcat(before + [QUOTE], word);
    NoQuoteUnchanged(word);
    assert EscapeQuotes(before + [QUOTE] + word) == before + e + word;
    EscapeConcat(before + [QUOTE] + word, [QUOTE]);
  }

  lemma EscapeQuote()
    ensures EscapeQuotes([QUOTE]) == [QUOTE, QUOTE]
  {
    assert [QUOTE][1..] == [];
  }
}

=== FILE: export.dfy ===
/**
 The export button: the tasks of the selected date as a CSV table with a
 header row and one row per task, in list order. The importer beside it is
 the export's partner: reading an exported file gives back the tasks.
 */
module TodoExport {

  import opened Wrappers
  import opened Todo
  import Csv

  const Header: seq<string> := ["Start Time", "Description", "Category", "Priority", "Completed"]

  /** The Completed column. */
  function CompletedCell(completed: bool): (c: string)
    ensures c == "Yes" <==> completed
  {
    if completed then "Yes" else "No"
  }

  /** One task as a row, in the column order of the header. */
  function Row(t: Task): (r: seq<string>)
    ensures |r| == |Header|
  {
    [t.startTime, t.text, t.category, t.priority, CompletedCell(t.completed)]
  }

  /** One row per task, in list order. */
  function Rows(tasks: seq<Task>): (rows: seq<seq<string>>)
    ensures |rows| == |tasks|
    ensures forall i :: 0 <= i < |rows| ==> rows[i] == Row(tasks[i])
  {
    if tasks == [] then [] else [Row(tasks[0])] + Rows(tasks[1..])
  }

  /** The whole table: the header first, then the task rows. */
  function Table(tasks: seq<Task>): (table: seq<seq<string>>)
    ensures |table| == |tasks| + 1 && table[0] == Header
    ensures forall i :: 0 <= i < |table| ==> |table[i]| == |Header|
  {
    [Header] + Rows(tasks)
  }

  /** The file contents the export button downloads. */
  function ExportCsv(tasks: seq<Task>): (s: string)
    ensures |s| >= |Csv.WriteRecord(Header)| && s[..|Csv.WriteRecord(Header)|] == Csv.WriteRecord(Header)
  {
    Csv.WriteDocument(Table(tasks))
  }

  // ----- Reading an export back -----

  /** A row back as a task; None unless it has five cells and a Yes/No last cell. */
  function TaskOfRow(row: seq<string>): (r: Option<Task>)
    ensures r.Some? <==> |row| == |Header| && row[4] in {"Yes", "No"}
  {
    if |row| == |Header| && (row[4] == "Yes" || row[4] == "No") then
      Some(Task(row[1], row[0], row[2], row[3], row[4] == "Yes"))
    else None
  }

  function TasksOfRows(rows: seq<seq<string>>): (r: Option<seq<Task>>)
    ensures r.Some? ==> |r.value| == |rows|
  {
    if rows == [] then Some([])
    else
      match TaskOfRow(rows[0])
      case None => None
      case Some(t) =>
        match TasksOfRows(rows[1..])
        case None => None
        case Some(ts) => Some([t] + ts)
  }

  /** Reads an exported file: its header row, then one task per row. */
  function ImportCsv(s: string): (r: Option<seq<Task>>)
    ensures Csv.ReadDocument(s).None? ==> r.None?
  {
    match Csv.ReadDocument(s)
    case None => None
    case Some(table) =>
      if |table| == 0 || table[0] != Header then None else TasksOfRows(table[1..])
  }

  // ----- Properties -----

  /** Every field of a task survives its row, including the completion flag. */
  lemma RowRoundTrip(t: Task)
    ensures TaskOfRow(Row(t)) == Some(t)
  {
  }

  lemma {:induction false} RowsRoundTrip(tasks: seq<Task>)
    ensures TasksOfRows(Rows(tasks)) == Some(tasks)
  {
    if tasks != [] {
      RowRoundTrip(tasks[0]);
      RowsRoundTrip(tasks[1..]);
      assert Rows(tasks)[1..] == Rows(tasks[1..]);
      assert [tasks[0]] + tasks[1..] == tasks;
    }
  }

  /** The export loses nothing: reading the file gives back the same tasks, in order. */
  lemma ExportRoundTrip(tasks: seq<Task>)
    ensures ImportCsv(ExportCsv(tasks)) == Some(tasks)
  {
    var table := Table(tasks);
    Csv.DocumentRoundTrip(table);
    assert table[1..] == Rows(tasks);
    RowsRoundTrip(tasks);
  }

  /** An empty day exports the header line alone. */
  lemma EmptyExport()
    ensures ExportCsv([]) == Csv.WriteRecord(Header)
  {
    assert Table([]) == [Header];
  }

  /** The Completed column says Yes exactly for completed tasks. */
  lemma CompletedColumn(tasks: seq<Task>, i: nat)
    requires i < |tasks|
    ensures Table(tasks)[i + 1][4] == "Yes" <==> tasks[i].completed
    ensures Table(tasks)[i + 1][4] == "No" <==> !tasks[i].completed
  {
    assert Table(tasks)[i + 1] == Row(tasks[i]);
  }
}

=== FILE: focus.dfy ===
/**
 The per-user focus statistics record of focus.js and the two operations that
 change it: the daily/weekly reconcile run whenever the dashboard is shown, and
 the update made when a session completes. Instants are integer milliseconds
 since the epoch; a calendar day is an instant divided by the length of a day.
 The weekly total is kept as whole goal seconds instead of fractional hours.
 */
module Focus {

  import Text
  import Arith
  import opened Wrappers

  const SECOND: nat := 1000
  const DAY: nat := 1000 * 60 * 60 * 24
  const WEEK_DAYS: nat := 7

  /** The calendar day of an instant (floor division, so instants before the epoch fall on negative days). */
  function Day(t: int): (d: int)
    ensures d * DAY <= t < d * DAY + DAY
  {
    t / DAY
  }

  datatype FocusRecord = FocusRecord(
    currentStreak: nat,
    longestStreak: nat,
    weekSeconds: nat,
    sessionsToday: nat,
    lastSessionDate: int,
    lastWeeklyReset: int)

  /** The record handed out for a user with nothing stored: counters at zero, last session at the epoch. */
  function DefaultRecord(now: int): (r: FocusRecord)
    ensures r.currentStreak == 0 && r.longestStreak == 0
    ensures r.weekSeconds == 0 && r.sessionsToday == 0
    ensures r.lastSessionDate == 0 && r.lastWeeklyReset == now
  {
    FocusRecord(0, 0, 0, 0, 0, now)
  }

  /** The invariant the dashboard relies on: the best streak is never below the running one. */
  predicate StreakInvariant(r: FocusRecord) {
    r.longestStreak >= r.currentStreak
  }

  /** Whole days elapsed since the last weekly reset, rounded down as Math.floor does. */
  function DaysSinceReset(r: FocusRecord, now: int): (d: int)
    ensures d * DAY <= now - r.lastWeeklyReset < d * DAY + DAY
  {
    (now - r.lastWeeklyReset) / DAY
  }

  /**
   checkAndResetStats: start a new week once seven whole days have passed since
   the last weekly reset, and start a new day when the last session was not
   today, breaking the streak unless that session was yesterday.
   */
  function Reconcile(r: FocusRecord, now: int): (r': FocusRecord)
    ensures r'.longestStreak == r.longestStreak && r'.lastSessionDate == r.lastSessionDate
    ensures r'.currentStreak == r.currentStreak || r'.currentStreak == 0
    ensures now - r.lastWeeklyReset >= WEEK_DAYS * DAY ==> r'.weekSeconds == 0 && r'.lastWeeklyReset == now
    ensures now - r.lastWeeklyReset < WEEK_DAYS * DAY ==>
      r'.weekSeconds == r.weekSeconds && r'.lastWeeklyReset == r.lastWeeklyReset
    ensures Day(r.lastSessionDate) == Day(now) ==>
      r'.sessionsToday == r.sessionsToday && r'.currentStreak == r.currentStreak
    ensures Day(r.lastSessionDate) == Day(now) - 1 ==>
      r'.sessionsToday == 0 && r'.currentStreak == r.currentStreak
    ensures Day(r.lastSessionDate) < Day(now) - 1 || Day(r.lastSessionDate) > Day(now) ==>
      r'.sessionsToday == 0 && r'.currentStreak == 0
    ensures StreakInvariant(r) ==> StreakInvariant(r')
  {
    WeekThreshold(r, now);
    var weekly :=
      if DaysSinceReset(r, now) >= WEEK_DAYS then r.(weekSeconds := 0, lastWeeklyReset := now) else r;
    if Day(now) != Day(weekly.lastSessionDate) then
      var daily := weekly.(sessionsToday := 0);
      if Day(weekly.lastSessionDate) != Day(now) - 1 then daily.(currentStreak := 0) else daily
    else
      weekly
  }

  /** Seven whole days have passed exactly when the elapsed time reaches seven days' worth of milliseconds. */
  lemma WeekThreshold(r: FocusRecord, now: int)
    ensures DaysSinceReset(r, now) >= WEEK_DAYS <==> now - r.lastWeeklyReset >= WEEK_DAYS * DAY
  {
    var e := now - r.lastWeeklyReset;
    if e >= WEEK_DAYS * DAY {
      Arith.DivMonotone(WEEK_DAYS * DAY, e, DAY);
      assert (WEEK_DAYS * DAY) / DAY == WEEK_DAYS;
    } else {
      Arith.DivMonotone(e, WEEK_DAYS * DAY - 1, DAY);
      assert (WEEK_DAYS * DAY - 1) / DAY == WEEK_DAYS - 1;
    }
  }

  /**
   sessionComplete: credit the goal to the week, count the session today, move
   the streak on (continue after yesterday, restart after an older session,
   keep it after a session earlier today), raise the best streak, and stamp
   the session time.
   */
  function Complete(r: FocusRecord, goalSeconds: nat, now: int): (r': FocusRecord)
    ensures r'.sessionsToday == r.sessionsToday + 1
    ensures r'.weekSeconds == r.weekSeconds + goalSeconds
    ensures r'.lastSessionDate == now && r'.lastWeeklyReset == r.lastWeeklyReset
    ensures Day(r.lastSessionDate) == Day(now) - 1 ==> r'.currentStreak == r.currentStreak + 1
    ensures Day(r.lastSessionDate) == Day(now) ==> r'.currentStreak == r.currentStreak
    ensures Day(r.lastSessionDate) != Day(now) - 1 && Day(r.lastSessionDate) != Day(now) ==>
      r'.currentStreak == 1
    ensures r'.longestStreak == if r'.currentStreak > r.longestStreak then r'.currentStreak else r.longestStreak
    ensures StreakInvariant(r')
    ensures Day(r.lastSessionDate) != Day(now) || r.currentStreak >= 1 ==> r'.currentStreak >= 1
  {
    var credited := r.(weekSeconds := r.weekSeconds + goalSeconds, sessionsToday := r.sessionsToday + 1);
    var last := Day(r.lastSessionDate);
    var streak :=
      if last == Day(now) - 1 then credited.currentStreak + 1
      else if last != Day(now) then 1
      else credited.currentStreak;
    var longest := if streak > credited.longestStreak then streak else credited.longestStreak;
    credited.(currentStreak := streak, longestStreak := longest, lastSessionDate := now)
  }

  // ----- Properties relating the operations -----

  /** Reconciling twice at the same instant is the same as reconciling once. */
  lemma ReconcileIdempotent(r: FocusRecord, now: int)
    ensures Reconcile(Reconcile(r, now), now) == Reconcile(r, now)
  {
    var once := Reconcile(r, now);
    WeekThreshold(once, now);
  }

  /** A reset is not due after six days and twenty-three hours. */
  lemma NoWeeklyResetBeforeSevenDays(r: FocusRecord)
    ensures Reconcile(r, r.lastWeeklyReset + 6 * DAY + 23 * 60 * 60 * SECOND).weekSeconds == r.weekSeconds
  {
  }

  /** Reconciling a brand-new record does not invent a streak break or a streak. */
  lemma FreshRecordReconcile(t0: int, now: int)
    ensures var r := Reconcile(DefaultRecord(t0), now);
      r.currentStreak == 0 && r.longestStreak == 0 && r.sessionsToday == 0 && StreakInvariant(r)
  {
  }

  /**
   Completing on one day and again on the next builds a streak of two, and the
   longest streak rises with it; a day
   with no session in between restarts it at one, whether or not the dashboard
   was opened on the empty day.
   */
  lemma StreakContinuity(r: FocusRecord, d: int, goal: nat)
    requires Day(r.lastSessionDate) < d - 1
    ensures var day1 := Complete(r, goal, d * DAY);
      Complete(day1, goal, (d + 1) * DAY).currentStreak == 2
    ensures var day1 := Complete(r, goal, d * DAY);
      Complete(day1, goal, (d + 1) * DAY).longestStreak >= 2
    ensures var day1 := Complete(r, goal, d * DAY);
      Complete(Reconcile(day1, (d + 1) * DAY), goal, (d + 2) * DAY).currentStreak == 1
    ensures var day1 := Complete(r, goal, d * DAY);
      Complete(day1, goal, (d + 2) * DAY).currentStreak == 1
  {
    DayOfStart(d);
    DayOfStart(d + 1);
    DayOfStart(d + 2);
  }

  lemma DayOfStart(d: int)
    ensures Day(d * DAY) == d
  {
  }

  /**
   A session that ends on a later day than the previous completion adds to the
   earlier day's count: completion does not start a new day itself, and the
   dashboard only does so before the session starts.
   */
  lemma SessionsTodayCarriesAcrossMidnight(r: FocusRecord, goal: nat, now: int)
    requires Day(r.lastSessionDate) == Day(now) - 1 && r.sessionsToday == 3
    ensures Reconcile(Complete(r, goal, now), now).sessionsToday == 4
  {
  }

  // ----- Session goal and clock display -----

  datatype GoalError = NotLoggedIn | InvalidGoal

  /** parseInt(field.value) || 0: a field that does not parse (None) counts as zero. */
  function FieldValue(field: Option<int>): (v: int)
    ensures field == None ==> v == 0
  {
    match field
    case Some(v) => v
    case None => 0
  }

  /** The goal typed into the dashboard: hours, minutes and seconds; only a positive total is accepted. */
  function GoalSeconds(hrs: Option<int>, mins: Option<int>, secs: Option<int>): (r: Result<nat, GoalError>)
    ensures r.Success? <==> FieldValue(hrs) * 3600 + FieldValue(mins) * 60 + FieldValue(secs) > 0
    ensures r.Success? ==> r.value > 0 && r.value == FieldValue(hrs) * 3600 + FieldValue(mins) * 60 + FieldValue(secs)
    ensures r.Failure? ==> r.error == InvalidGoal
  {
    var total := FieldValue(hrs) * 3600 + FieldValue(mins) * 60 + FieldValue(secs);
    if total <= 0 then Failure(InvalidGoal) else Success(total)
  }

  datatype Clock = Clock(hours: nat, minutes: nat, seconds: nat)

  /** The hours, minutes and seconds shown for a count of seconds. */
  function Decompose(total: nat): (c: Clock)
    ensures c.hours * 3600 + c.minutes * 60 + c.seconds == total
    ensures c.minutes < 60 && c.seconds < 60
  {
    Clock(total / 3600, (total % 3600) / 60, total % 60)
  }

  /** The decomposition is the only one with minutes and seconds below sixty. */
  lemma DecomposeUnique(total: nat, c: Clock)
    requires c.hours * 3600 + c.minutes * 60 + c.seconds == total
    requires c.minutes < 60 && c.seconds < 60
    ensures c == Decompose(total)
  {
    var d := Decompose(total);
    assert c.minutes * 60 + c.seconds < 3600;
    assert d.minutes * 60 + d.seconds < 3600;
    assert c.hours == d.hours;
    assert c.minutes == d.minutes;
  }

  /** The countdown's first display shows the goal as typed, when minutes and seconds are below sixty. */
  lemma GoalDisplay(h: nat, m: nat, sec: nat)
    requires m < 60 && sec < 60 && h * 3600 + m * 60 + sec > 0
    ensures GoalSeconds(Some(h), Some(m), Some(sec)).Success?
    ensures Decompose(GoalSeconds(Some(h), Some(m), Some(sec)).value) == Clock(h, m, sec)
  {
    DecomposeUnique(h * 3600 + m * 60 + sec, Clock(h, m, sec));
  }

  /** formatTime: HH:MM:SS, each part zero-padded to at least two digits. */
  function FormatTime(total: nat): (s: string)
    ensures |s| >= 8 && s[|s| - 3] == ':' && s[|s| - 6] == ':'
    ensures Text.IsDigits(s[|s| - 2..]) && Text.IsDigits(s[|s| - 5..|s| - 3])
  {
    var c := Decompose(total);
    var h := Text.Pad2(c.hours);
    var m := Text.Pad2(c.minutes);
    var sec := Text.Pad2(c.seconds);
    var s := h + ":" + m + ":" + sec;
    assert s[|s| - 2..] == sec;
    assert s[|s| - 5..|s| - 3] == m;
    s
  }

  /** Reads an HH:MM:SS display back into its three fields. */
  function ParseClock(s: string): (r: Option<Clock>)
    ensures r.Some? ==> |Text.Split(s, ':')| == 3
  {
    var parts := Text.Split(s, ':');
    if |parts| == 3 && Text.IsDigits(parts[0]) && Text.IsDigits(parts[1]) && Text.IsDigits(parts[2]) then
      Some(Clock(Text.DecimalValue(parts[0]), Text.DecimalValue(parts[1]), Text.DecimalValue(parts[2])))
    else
      None
  }

  /** Reads an HH:MM:SS display back into seconds. */
  function ParseTime(s: string): (r: Option<nat>)
    ensures r.Some? <==> ParseClock(s).Some?
  {
    match ParseClock(s)
    case None => None
    case Some(c) => Some(c.hours * 3600 + c.minutes * 60 + c.seconds)
  }

  /**
   The display shows the decomposition field by field: reading its three
   fields back gives the hours, minutes and seconds, with minutes and seconds
   below sixty.
   */
  lemma FormatTimeFields(total: nat)
    ensures ParseClock(FormatTime(total)) == Some(Decompose(total))
  {
    var c := Decompose(total);
    var h, m, sec := Text.Pad2(c.hours), Text.Pad2(c.minutes), Text.Pad2(c.seconds);
    SplitThree(h, m, sec);
  }

  /** The display loses nothing: reading it back gives the number of seconds shown. */
  lemma FormatTimeRoundTrip(total: nat)
    ensures ParseTime(FormatTime(total)) == Some(total)
  {
    var shown := FormatTime(total);
    FormatTimeFields(total);
    ParseTimeOfFields(shown, Decompose(total));
  }

  lemma ParseTimeOfFields(s: string, c: Clock)
    requires ParseClock(s) == Some(c)
    ensures ParseTime(s) == Some(c.hours * 3600 + c.minutes * 60 + c.seconds)
  {
  }

  /** Three colon-free parts joined by colons split back into the same parts. */
  lemma SplitThree(a: string, b: string, c: string)
    requires ':' !in a && ':' !in b && ':' !in c
    ensures Text.Split(a + ":" + b + ":" + c, ':') == [a, b, c]
  {
    var parts := [a, b, c];
    assert parts[1..][1..] == [c];
    assert Text.Join(parts[1..], ':') == b + ":" + c;
    assert Text.Join(parts, ':') == a + ":" + (b + ":" + c);
    assert a + ":" + (b + ":" + c) == a + ":" + b + ":" + c;
    Text.SplitJoin(parts, ':');
  }

  /** Two-digit minutes and seconds: the display is exactly eight characters below 100 hours. */
  lemma FormatTimeWidth(total: nat)
    requires total < 100 * 3600
    ensures |FormatTime(total)| == 8
  {
  }
}

=== FILE: html.dfy ===
/**
 escapeHtml, the guard the task list puts around task text, category and
 priority before they go into markup: the four characters & < > " become
 entity references and everything else is kept. The decoder beside it is the
 partner that shows nothing is lost.
 */
module Html {

  /** The replacement of one character. */
  function Entity(c: char): (r: string)
    ensures |r| >= 1 && r[0] == (if Special(c) then '&' else c)
  {
    if c == '&' then "&amp;"
    else if c == '<' then "&lt;"
    else if c == '>' then "&gt;"
    else if c == '"' then "&quot;"
    else [c]
  }

  predicate Special(c: char) {
    c == '&' || c == '<' || c == '>' || c == '"'
  }

  /**
   escapeHtml(s). The falsy guard returns "" for the empty string, which is
   also what the replacement gives for it, so one case covers both.
   */
  function EscapeHtml(s: string): (r: string)
    ensures '<' !in r && '>' !in r && '"' !in r
    ensures |r| >= |s|
    ensures s == [] ==> r == []
  {
    if s == [] then "" else Entity(s[0]) + EscapeHtml(s[1..])
  }

  /** Reads entity references back into characters; any other character is kept. */
  function UnescapeHtml(s: string): (r: string)
    ensures |r| <= |s|
    decreases |s|
  {
    if s == [] then []
    else if |s| >= 5 && s[..5] == "&amp;" then "&" + UnescapeHtml(s[5..])
    else if |s| >= 4 && s[..4] == "&lt;" then "<" + UnescapeHtml(s[4..])
    else if |s| >= 4 && s[..4] == "&gt;" then ">" + UnescapeHtml(s[4..])
    else if |s| >= 6 && s[..6] == "&quot;" then "\"" + UnescapeHtml(s[6..])
    else [s[0]] + UnescapeHtml(s[1..])
  }

  /** Decoding one replacement gives back its character. */
  lemma UnescapeEntity(c: char, rest: string)
    ensures UnescapeHtml(Entity(c) + rest) == [c] + UnescapeHtml(rest)
  {
    var s := Entity(c) + rest;
    if c == '&' {
      assert s[..5] == "&amp;" && s[5..] == rest;
    } else if c == '<' {
      assert |s| >= 5 ==> s[..5] != "&amp;" by { assert s[1] == 'l'; }
      assert s[..4] == "&lt;" && s[4..] == rest;
    } else if c == '>' {
      assert |s| >= 5 ==> s[..5] != "&amp;" by { assert s[1] == 'g'; }
      assert s[..4] != "&lt;" by { assert s[1] == 'g'; }
      assert s[..4] == "&gt;" && s[4..] == rest;
    } else if c == '"' {
      assert s[..5] != "&amp;" && s[..4] != "&lt;" && s[..4] != "&gt;" by { assert s[1] == 'q'; }
      assert s[..6] == "&quot;" && s[6..] == rest;
    } else {
      assert s[0] == c && s[1..] == rest;
      assert |s| >= 4 ==> s[..4] != "&lt;" && s[..4] != "&gt;" by {
        if |s| >= 4 { assert s[..4][0] == c; }
      }
      assert |s| >= 5 ==> s[..5] != "&amp;" by {
        if |s| >= 5 { assert s[..5][0] == c; }
      }
      assert |s| >= 6 ==> s[..6] != "&quot;" by {
        if |s| >= 6 { assert s[..6][0] == c; }
      }
    }
  }

  /** The escaping loses nothing: decoding the escaped text gives back the text. */
  lemma {:induction false} EscapeRoundTrip(s: string)
    ensures UnescapeHtml(EscapeHtml(s)) == s
  {
    if s != [] {
      UnescapeEntity(s[0], EscapeHtml(s[1..]));
      EscapeRoundTrip(s[1..]);
      assert [s[0]] + s[1..] == s;
    }
  }

  /** Escaping a concatenation escapes each part, as the template does field by field. */
  lemma {:induction false} EscapeConcat(a: string, b: string)
    ensures EscapeHtml(a + b) == EscapeHtml(a) + EscapeHtml(b)
  {
    if a != [] {
      assert (a + b)[0] == a[0] && (a + b)[1..] == a[1..] + b;
      EscapeConcat(a[1..], b);
      assert EscapeHtml(a + b) == Entity(a[0]) + EscapeHtml(a[1..] + b);
    } else {
      assert a + b == b;
    }
  }

  /** Text without any of the four characters passes through unchanged. */
  lemma {:induction false} PlainTextUnchanged(s: string)
    requires forall i :: 0 <= i < |s| ==> !Special(s[i])
    ensures EscapeHtml(s) == s
  {
    if s != [] {
      PlainTextUnchanged(s[1..]);
      assert [s[0]] + s[1..] == s;
    }
  }

  /** A character on each side of a text is escaped on its own. */
  lemma EscapeWrapped(a: char, text: string, b: char)
    ensures EscapeHtml([a] + text + [b]) == Entity(a) + EscapeHtml(text) + Entity(b)
  {
    EscapeConcat([a] + text, [b]);
    EscapeConcat([a], text);
    assert [a][1..] == [] && [b][1..] == [];
  }

  /** A markup tag typed as task text arrives as text: its brackets become entity references. */
  lemma TagExample(name: string)
    ensures EscapeHtml(['<'] + name + ['>']) == "&lt;" + EscapeHtml(name) + "&gt;"
  {
    EscapeWrapped('<', name, '>');
  }
}

=== FILE: reminder.dfy ===
/**
 The reminder scheduler of the task list. Each render schedules, for every
 task the list shows that has a start time, a timer that fires at that time
 on the selected date, provided that instant is still in the future. When
 the timer fires, a notification appears only if permission was granted and
 the task is still not completed.

 The selected date's local midnight and the current instant are parameters
 (integer milliseconds); parsing the date string and the time zone are not
 part of this model.
 */
module Reminder {

  import opened Wrappers
  import Text
  import opened Todo

  const MINUTE_MS: int := 60000
  const HOUR_MS: int := 3600000

  /**
   Number(part) for a clock field: a digit string is its value (the empty
   string is 0); anything else is NaN, written None.
   */
  function ClockNumber(part: string): (r: Option<nat>)
    ensures r.Some? <==> Text.IsDigits(part)
    ensures r.Some? ==> r.value == Text.DecimalValue(part)
    ensures part == [] ==> r == Some(0)
  {
    if Text.IsDigits(part) then Some(Text.DecimalValue(part)) else None
  }

  /**
   startTime.split(":").map(Number), keeping the first two fields. With a
   single field the minutes are undefined, which makes the instant NaN.
   */
  function ClockFields(startTime: string): (r: Option<(nat, nat)>)
    ensures r.Some? <==>
      var parts := Text.Split(startTime, ':');
      |parts| >= 2 && Text.IsDigits(parts[0]) && Text.IsDigits(parts[1])
    ensures r.Some? ==>
      var parts := Text.Split(startTime, ':');
      r.value == (Text.DecimalValue(parts[0]), Text.DecimalValue(parts[1]))
  {
    var parts := Text.Split(startTime, ':');
    if |parts| < 2 then None
    else
      match (ClockNumber(parts[0]), ClockNumber(parts[1]))
      case (Some(h), Some(m)) => Some((h, m))
      case _ => None
  }

  /** setHours(h, m, 0, 0) on the selected date: hours past 23 roll into the following days. */
  function FireAt(midnight: int, startTime: string): (r: Option<int>)
    ensures r.Some? <==> ClockFields(startTime).Some?
    ensures r.Some? ==>
      r.value == midnight + ClockFields(startTime).value.0 * HOUR_MS + ClockFields(startTime).value.1 * MINUTE_MS
    ensures r.Some? ==> r.value >= midnight
  {
    match ClockFields(startTime)
    case None => None
    case Some((h, m)) => Some(midnight + h * HOUR_MS + m * MINUTE_MS)
  }

  /**
   The delay handed to setTimeout, or None when nothing is scheduled: no start
   time, a time that does not parse, or an instant that is not in the future.
   */
  function ReminderDelay(t: Task, midnight: int, now: int): (r: Option<int>)
    ensures r.Some? ==> t.startTime != "" && r.value > 0
    ensures r.Some? <==> t.startTime != "" && FireAt(midnight, t.startTime).Some?
                         && FireAt(midnight, t.startTime).value > now
    ensures r.Some? ==> now + r.value == FireAt(midnight, t.startTime).value
  {
    if t.startTime == "" then None
    else
      match FireAt(midnight, t.startTime)
      case None => None
      case Some(at) => if at - now > 0 then Some(at - now) else None
  }

  /** Whether the timer's callback shows a notification for the task object it reads. */
  predicate Notifies(t: Task, permissionGranted: bool): (b: bool)
    ensures b ==> permissionGranted
    ensures b ==> !t.completed
  {
    permissionGranted && !t.completed
  }

  /**
   A timer set by a render: the position it was set for, its delay, and the
   task object the render handed to it (as it was at render time).
   */
  datatype Scheduled = Scheduled(index: nat, delay: int, task: Task)

  /**
   What befalls the rendered list before the timer fires. The timer shares
   its task object with the row's checkbox and click handlers of the same
   render: a toggle there flips that object in place, a delete only splices
   the array. Either one re-renders the list with fresh objects and removes
   the old rows, so at most one such event reaches the object; toggles made
   through later renders act on other objects.
   */
  datatype RenderEvent = Untouched | ToggledAt(i: nat) | DeletedAt(i: nat)

  /** The task object the timer's callback reads when it fires. */
  function SeenAtFire(s: Scheduled, e: RenderEvent): (t: Task)
    ensures t.(completed := s.task.completed) == s.task
    ensures t.completed != s.task.completed <==> e == ToggledAt(s.index)
  {
    if e == ToggledAt(s.index) then s.task.(completed := !s.task.completed) else s.task
  }

  /** The timers the render loop sets for the given positions, in order. */
  function ScheduleAt(tasks: seq<Task>, v: seq<nat>, midnight: int, now: int): (rs: seq<Scheduled>)
    requires forall k :: 0 <= k < |v| ==> v[k] < |tasks|
    ensures |rs| <= |v|
    ensures forall j :: 0 <= j < |rs| ==>
      rs[j].index in v && rs[j].index < |tasks| && rs[j].delay > 0
      && rs[j].task == tasks[rs[j].index]
      && ReminderDelay(tasks[rs[j].index], midnight, now) == Some(rs[j].delay)
  {
    if v == [] then []
    else
      var rest := ScheduleAt(tasks, v[1..], midnight, now);
      match ReminderDelay(tasks[v[0]], midnight, now)
      case None => rest
      case Some(d) => [Scheduled(v[0], d, tasks[v[0]])] + rest
  }

  /** One render of the list under a filter: only the shown tasks get a timer. */
  function Schedule(tasks: seq<Task>, f: Filter, midnight: int, now: int): (rs: seq<Scheduled>)
    ensures forall j :: 0 <= j < |rs| ==>
      rs[j].index < |tasks| && Shown(tasks[rs[j].index], f) && rs[j].delay > 0
      && rs[j].task == tasks[rs[j].index]
      && ReminderDelay(tasks[rs[j].index], midnight, now) == Some(rs[j].delay)
  {
    var v := View(tasks, f);
    var rs := ScheduleAt(tasks, v, midnight, now);
    assert forall j :: 0 <= j < |rs| ==> Shown(tasks[rs[j].index], f) by {
      forall j | 0 <= j < |rs| ensures Shown(tasks[rs[j].index], f) {
        var k :| 0 <= k < |v| && v[k] == rs[j].index;
      }
    }
    rs
  }

  // ----- Properties -----

  /** Every position with a future reminder gets its timer. */
  lemma {:induction false} ScheduleAtComplete(tasks: seq<Task>, v: seq<nat>, midnight: int, now: int, i: nat)
    requires forall k :: 0 <= k < |v| ==> v[k] < |tasks|
    requires i in v && i < |tasks| && ReminderDelay(tasks[i], midnight, now).Some?
    ensures Scheduled(i, ReminderDelay(tasks[i], midnight, now).value, tasks[i]) in ScheduleAt(tasks, v, midnight, now)
  {
    if v[0] != i {
      assert i in v[1..];
      ScheduleAtComplete(tasks, v[1..], midnight, now, i);
    }
  }

  /** A shown task whose start time is still ahead gets a timer with the right delay. */
  lemma ScheduleComplete(tasks: seq<Task>, f: Filter, midnight: int, now: int, i: nat)
    requires i < |tasks| && Shown(tasks[i], f) && ReminderDelay(tasks[i], midnight, now).Some?
    ensures Scheduled(i, ReminderDelay(tasks[i], midnight, now).value, tasks[i]) in Schedule(tasks, f, midnight, now)
  {
    ViewComplete(tasks, f, i);
    ScheduleAtComplete(tasks, View(tasks, f), midnight, now, i);
  }

  /** The Active filter never sets a timer for a task that is already completed. */
  lemma ActiveSkipsCompleted(tasks: seq<Task>, midnight: int, now: int, j: nat)
    requires j < |Schedule(tasks, Active, midnight, now)|
    ensures !tasks[Schedule(tasks, Active, midnight, now)[j].index].completed
  {
  }

  /**
   The timer decides on the list as that render's handlers leave it: the
   task at its position after the toggle, if the toggle was on that render.
   */
  lemma FireSeesRenderToggle(tasks: seq<Task>, f: Filter, midnight: int, now: int, j: nat, e: RenderEvent)
    requires j < |Schedule(tasks, f, midnight, now)|
    ensures var s := Schedule(tasks, f, midnight, now)[j];
      SeenAtFire(s, e) == (if e.ToggledAt? then Toggle(tasks, e.i)[s.index] else tasks[s.index])
  {
  }

  /**
   A reminder notifies, given permission, exactly when its task is not
   completed at render time and not toggled on that render, or completed
   and unticked on it.
   */
  lemma NotifiesIff(tasks: seq<Task>, f: Filter, midnight: int, now: int, j: nat, e: RenderEvent, granted: bool)
    requires j < |Schedule(tasks, f, midnight, now)|
    ensures var s := Schedule(tasks, f, midnight, now)[j];
      Notifies(SeenAtFire(s, e), granted) <==>
        granted && (tasks[s.index].completed <==> e == ToggledAt(s.index))
  {
  }

  /**
   Under the Completed filter only completed tasks get timers, so a reminder
   notifies only if its task is unticked on the render that set it.
   */
  lemma CompletedFilterSilent(tasks: seq<Task>, midnight: int, now: int, j: nat, e: RenderEvent, granted: bool)
    requires j < |Schedule(tasks, Completed, midnight, now)|
    ensures var s := Schedule(tasks, Completed, midnight, now)[j];
      Notifies(SeenAtFire(s, e), granted) <==> granted && e == ToggledAt(s.index)
  {
  }

  /** Ticking a task done before its time, on the render that set its reminder, keeps the reminder silent. */
  lemma TickedBeforeTimeSilent(tasks: seq<Task>, f: Filter, midnight: int, now: int, j: nat, granted: bool)
    requires j < |Schedule(tasks, f, midnight, now)|
    requires !tasks[Schedule(tasks, f, midnight, now)[j].index].completed
    ensures var s := Schedule(tasks, f, midnight, now)[j];
      !Notifies(SeenAtFire(s, ToggledAt(s.index)), granted)
  {
  }

  /**
   A reminder outlives its task: deleting the only task of the day leaves an
   empty list, yet the timer set by the earlier render still notifies for it.
   */
  lemma StaleReminderAfterDelete(t: Task, h: nat, m: nat, midnight: int, now: int)
    requires t.startTime == Text.Pad2(h) + ":" + Text.Pad2(m) && !t.completed
    requires midnight + h * HOUR_MS + m * MINUTE_MS > now
    ensures Delete([t], 0) == []
    ensures |Schedule([t], All, midnight, now)| == 1
    ensures Schedule([t], All, midnight, now)[0].task == t
    ensures Notifies(SeenAtFire(Schedule([t], All, midnight, now)[0], DeletedAt(0)), true)
  {
    ScheduledIffAhead(t, h, m, midnight, now);
    ViewAll([t]);
  }

  /** A time written as two-digit hours and minutes reads back as those numbers. */
  lemma ClockRoundTrip(h: nat, m: nat)
    ensures ClockFields(Text.Pad2(h) + ":" + Text.Pad2(m)) == Some((h, m))
  {
    var parts := [Text.Pad2(h), Text.Pad2(m)];
    assert parts[1..] == [parts[1]];
    assert Text.Join(parts, ':') == parts[0] + ":" + parts[1];
    Text.SplitJoin(parts, ':');
  }

  /** A task at hh:mm is scheduled exactly when that minute of the day is still ahead. */
  lemma ScheduledIffAhead(t: Task, h: nat, m: nat, midnight: int, now: int)
    requires t.startTime == Text.Pad2(h) + ":" + Text.Pad2(m)
    ensures ReminderDelay(t, midnight, now).Some? <==> midnight + h * HOUR_MS + m * MINUTE_MS > now
    ensures ReminderDelay(t, midnight, now).Some? ==>
      ReminderDelay(t, midnight, now).value == midnight + h * HOUR_MS + m * MINUTE_MS - now
  {
    ClockRoundTrip(h, m);
  }

  /** A bare hour with no minutes part is never scheduled. */
  lemma HourOnlyNeverScheduled(t: Task, midnight: int, now: int)
    requires Text.IsDigits(t.startTime) && t.startTime != ""
    ensures ReminderDelay(t, midnight, now) == None
  {
    Text.SplitNoSep(t.startTime, ':');
  }
}

=== FILE: streak.dfy ===
/**
 What the streak counters mean. A streak is a run of consecutive calendar days
 each holding at least one completed session. Replaying any chronological log
 of completions and dashboard refreshes from the default record, the current
 streak is the run that ends on the last session day (while that day is today
 or yesterday), and the longest streak is the longest run ever completed.
 */
module Streak {

  import opened Focus
  import Arith

  datatype Event =
    | Finish(at: int, goal: nat)   // a session completes at instant `at`
    | Refresh(at: int)             // the dashboard is shown at instant `at`

  function Apply(r: FocusRecord, e: Event): (r': FocusRecord)
    ensures r'.longestStreak >= r.longestStreak
  {
    match e
    case Finish(t, goal) => Complete(r, goal, t)
    case Refresh(t) => Reconcile(r, t)
  }

  function Replay(r: FocusRecord, log: seq<Event>): (r': FocusRecord)
    ensures log == [] ==> r' == r
  {
    if log == [] then r else Apply(Replay(r, log[..|log| - 1]), log[|log| - 1])
  }

  /** Events happen in time order, all after the first day of the epoch. */
  predicate Chronological(log: seq<Event>) {
    && (forall i :: 0 <= i < |log| ==> log[i].at >= DAY)
    && (forall i, j :: 0 <= i < j < |log| ==> log[i].at <= log[j].at)
  }

  /** The calendar days on which some session completed. */
  ghost function SessionDays(log: seq<Event>): set<int> {
    if log == [] then {}
    else
      var last := log[|log| - 1];
      SessionDays(log[..|log| - 1]) + (if last.Finish? then {Day(last.at)} else {})
  }

  /** Every one of the k days ending with day e holds a session. */
  ghost predicate RunEndingAt(days: set<int>, e: int, k: nat) {
    forall x :: e - k < x <= e ==> x in days
  }

  lemma RunHoldsLastDay(days: set<int>, e: int, k: nat)
    requires RunEndingAt(days, e, k) && k > 0
    ensures e in days
  {
  }

  /** The run of session days ending with day e has exactly k days. */
  ghost predicate StreakEndingAt(days: set<int>, e: int, k: nat) {
    RunEndingAt(days, e, k) && e - k !in days
  }

  /** k is the length of the longest run of consecutive session days. */
  ghost predicate LongestRun(days: set<int>, k: nat) {
    && (exists e :: RunEndingAt(days, e, k))
    && (forall e, k': nat :: RunEndingAt(days, e, k') ==> k' <= k)
  }

  /** What the record knows about the log that produced it. */
  ghost predicate Tracks(r: FocusRecord, log: seq<Event>) {
    var days := SessionDays(log);
    var last := Day(r.lastSessionDate);
    && (days == {} ==> r.currentStreak == 0 && r.lastSessionDate == 0)
    && (days != {} ==> last in days && forall x :: x in days ==> x <= last)
    && (log != [] ==> r.lastSessionDate <= log[|log| - 1].at)
    && (days != {} && log != [] && last >= Day(log[|log| - 1].at) - 1 ==>
          StreakEndingAt(days, last, r.currentStreak))
    && LongestRun(days, r.longestStreak)
  }

  lemma DefaultTracks(t0: int)
    ensures Tracks(DefaultRecord(t0), [])
  {
    assert RunEndingAt({}, 0, 0);
    var none: set<int> := {};
    forall e, k: nat | RunEndingAt(none, e, k) ensures k <= 0 {
      if k > 0 {
        RunHoldsLastDay(none, e, k);
        assert false;
      }
    }
  }

  lemma {:induction false} FinishPreserves(r: FocusRecord, log: seq<Event>, t: int, goal: nat)
    requires Chronological(log + [Finish(t, goal)])
    requires Tracks(r, log)
    ensures Tracks(Complete(r, goal, t), log + [Finish(t, goal)])
  {
    var log' := log + [Finish(t, goal)];
    assert log'[..|log'| - 1] == log;
    var days := SessionDays(log);
    var d := Day(t);
    var days' := days + {d};
    assert SessionDays(log') == days';
    var r' := Complete(r, goal, t);
    var c' := r'.currentStreak;
    assert d >= 1 by { Arith.DivMonotone(DAY, t, DAY); }
    if days == {} {
      assert StreakEndingAt(days', d, 1);
      assert c' == 1;
    } else {
      var last := Day(r.lastSessionDate);
      assert log != [];
      var tp := log[|log| - 1].at;
      assert tp <= t by { assert log'[|log| - 1] == log[|log| - 1]; }
      Arith.DivMonotone(r.lastSessionDate, tp, DAY);
      Arith.DivMonotone(tp, t, DAY);
      if d == last {
        assert StreakEndingAt(days, last, r.currentStreak);
      } else if d == last + 1 {
        assert StreakEndingAt(days, last, r.currentStreak);
        assert c' == r.currentStreak + 1;
        assert StreakEndingAt(days', d, c');
      } else {
        assert c' == 1;
        assert d - 1 !in days';
        assert StreakEndingAt(days', d, c');
      }
    }
    assert StreakEndingAt(days', d, c');
    LongestAfterFinish(days, d, r.longestStreak, c');
  }

  lemma LongestAfterFinish(days: set<int>, d: int, longest: nat, c: nat)
    requires forall x :: x in days ==> x <= d
    requires LongestRun(days, longest)
    requires StreakEndingAt(days + {d}, d, c)
    ensures LongestRun(days + {d}, if c > longest then c else longest)
  {
    var days' := days + {d};
    var longest' := if c > longest then c else longest;
    forall e, k: nat | RunEndingAt(days', e, k) ensures k <= longest' {
      if k > 0 {
        if e > d {
          RunHoldsLastDay(days', e, k);
          assert false;
        } else if e == d {
          if k > c {
            assert false;
          }
        } else {
          forall x | e - k < x <= e ensures x in days {
            assert x in days';
          }
          assert RunEndingAt(days, e, k);
        }
      }
    }
    if c > longest {
      assert RunEndingAt(days', d, c);
    } else {
      var e0 :| RunEndingAt(days, e0, longest);
      assert RunEndingAt(days', e0, longest);
    }
  }

  lemma {:induction false} RefreshPreserves(r: FocusRecord, log: seq<Event>, t: int)
    requires Chronological(log + [Refresh(t)])
    requires Tracks(r, log)
    ensures Tracks(Reconcile(r, t), log + [Refresh(t)])
  {
    var log' := log + [Refresh(t)];
    assert log'[..|log'| - 1] == log;
    assert SessionDays(log') == SessionDays(log);
    var days := SessionDays(log);
    var last := Day(r.lastSessionDate);
    if days != {} && last >= Day(t) - 1 {
      var tp := log[|log| - 1].at;
      assert tp <= t by { assert log'[|log| - 1] == log[|log| - 1]; }
      Arith.DivMonotone(r.lastSessionDate, tp, DAY);
      Arith.DivMonotone(tp, t, DAY);
    }
    if log == [] {
      assert r.lastSessionDate == 0 || days != {};
      assert days == {};
    }
  }

  lemma {:induction false} ReplayTracks(t0: int, log: seq<Event>)
    requires Chronological(log)
    ensures Tracks(Replay(DefaultRecord(t0), log), log)
  {
    if log == [] {
      DefaultTracks(t0);
    } else {
      var prefix := log[..|log| - 1];
      assert Chronological(prefix);
      ReplayTracks(t0, prefix);
      assert log == prefix + [log[|log| - 1]];
      match log[|log| - 1]
      case Finish(t, goal) => FinishPreserves(Replay(DefaultRecord(t0), prefix), prefix, t, goal);
      case Refresh(t) => RefreshPreserves(Replay(DefaultRecord(t0), prefix), prefix, t);
    }
  }

  /**
   After any chronological history the longest streak is the longest run of
   session days, and the dashboard, once refreshed at instant t, shows as the
   current streak the run ending on the last session day if that day is today
   or yesterday, and zero otherwise.
   */
  lemma StreakMeaning(t0: int, log: seq<Event>, t: int)
    requires Chronological(log + [Refresh(t)])
    ensures var r := Replay(DefaultRecord(t0), log + [Refresh(t)]);
      var days := SessionDays(log);
      && LongestRun(days, r.longestStreak)
      && (days == {} || Day(r.lastSessionDate) < Day(t) - 1 ==> r.currentStreak == 0)
      && (days != {} && Day(r.lastSessionDate) >= Day(t) - 1 ==>
            StreakEndingAt(days, Day(r.lastSessionDate), r.currentStreak)
            && forall x :: x in days ==> x <= Day(r.lastSessionDate))
  {
    var log' := log + [Refresh(t)];
    ReplayTracks(t0, log');
    assert log'[..|log'| - 1] == log;
    assert SessionDays(log') == SessionDays(log);
    assert Chronological(log);
    ReplayTracks(t0, log);
  }
}

=== FILE: text.dfy ===
/**
 Character-level helpers the browser code relies on: decimal digit strings
 (String(n), Number(s), padStart), String.prototype.split on one separator,
 String.prototype.trim, and the character order used to sort start times.
 */
module Text {

  predicate IsDigit(c: char) {
    '0' <= c <= '9'
  }

  predicate IsDigits(s: string) {
    forall i :: 0 <= i < |s| ==> IsDigit(s[i])
  }

  function DigitValue(c: char): nat
    requires IsDigit(c)
  {
    (c as int - '0' as int) as nat
  }

  function DigitChar(d: nat): (c: char)
    requires d < 10
    ensures IsDigit(c) && DigitValue(c) == d
  {
    ('0' as int + d) as char
  }

  /** The value of a digit string read most-significant first; "" reads as 0, as Number("") does. */
  function DecimalValue(s: string): nat
    requires IsDigits(s)
  {
    if s == [] then 0 else DecimalValue(s[..|s| - 1]) * 10 + DigitValue(s[|s| - 1])
  }

  /** String(n) for a non-negative integer: shortest decimal representation. */
  function NatToDecimal(n: nat): (s: string)
    ensures IsDigits(s) && 1 <= |s|
    ensures |s| == 1 || s[0] != '0'
  {
    if n < 10 then [DigitChar(n)] else NatToDecimal(n / 10) + [DigitChar(n % 10)]
  }

  lemma {:induction false} DecimalRoundTrip(n: nat)
    ensures DecimalValue(NatToDecimal(n)) == n
  {
    if n >= 10 {
      var s := NatToDecimal(n);
      assert s[..|s| - 1] == NatToDecimal(n / 10);
      DecimalRoundTrip(n / 10);
    }
  }

  lemma {:induction false} LeadingZero(s: string)
    requires IsDigits(s)
    ensures IsDigits("0" + s) && DecimalValue("0" + s) == DecimalValue(s)
  {
    if s != [] {
      var z := "0" + s;
      assert z[..|z| - 1] == "0" + s[..|s| - 1];
      LeadingZero(s[..|s| - 1]);
    }
  }

  /** String(n).padStart(2, '0'). */
  function Pad2(n: nat): (s: string)
    ensures IsDigits(s) && 2 <= |s|
    ensures ':' !in s
    ensures DecimalValue(s) == n
    ensures n < 100 ==> |s| == 2
  {
    var d := NatToDecimal(n);
    DecimalRoundTrip(n);
    if |d| < 2 then
      LeadingZero(d);
      var r := "0" + d;
      assert forall i :: 0 <= i < |r| ==> IsDigit(r[i]);
      r
    else
      if n < 100 then assert n >= 10; PadTwoDigits(n); d else d
  }

  lemma PadTwoDigits(n: nat)
    requires 10 <= n < 100
    ensures |NatToDecimal(n)| == 2
  {
  }

  /** s.split(sep) for a one-character separator: always at least one part. */
  function Split(s: string, sep: char): (parts: seq<string>)
    ensures 1 <= |parts|
    ensures forall i :: 0 <= i < |parts| ==> sep !in parts[i]
  {
    if s == [] then [""]
    else if s[0] == sep then [""] + Split(s[1..], sep)
    else
      var p := Split(s[1..], sep);
      [[s[0]] + p[0]] + p[1..]
  }

  /** parts.join(sep). */
  function Join(parts: seq<string>, sep: char): (s: string)
    requires 1 <= |parts|
    ensures |s| >= |parts[0]| && s[..|parts[0]|] == parts[0]
  {
    if |parts| == 1 then parts[0] else parts[0] + [sep] + Join(parts[1..], sep)
  }

  lemma {:induction false} SplitNoSep(a: string, sep: char)
    requires sep !in a
    ensures Split(a, sep) == [a]
  {
    if a != [] {
      SplitNoSep(a[1..], sep);
      assert [a[0]] + a[1..] == a;
    }
  }

  lemma {:induction false} SplitCons(a: string, sep: char, rest: string)
    requires sep !in a
    ensures Split(a + [sep] + rest, sep) == [a] + Split(rest, sep)
  {
    if a == [] {
      assert a + [sep] + rest == [sep] + rest;
      assert ([sep] + rest)[1..] == rest;
    } else {
      var s := a + [sep] + rest;
      assert s[0] == a[0];
      assert s[1..] == a[1..] + [sep] + rest;
      SplitCons(a[1..], sep, rest);
      assert [a[0]] + a[1..] == a;
    }
  }

  /** Splitting a join recovers the parts when no part contains the separator. */
  lemma {:induction false} SplitJoin(parts: seq<string>, sep: char)
    requires 1 <= |parts|
    requires forall i :: 0 <= i < |parts| ==> sep !in parts[i]
    ensures Split(Join(parts, sep), sep) == parts
  {
    if |parts| == 1 {
      SplitNoSep(parts[0], sep);
    } else {
      SplitJoin(parts[1..], sep);
      SplitCons(parts[0], sep, Join(parts[1..], sep));
      assert [parts[0]] + parts[1..] == parts;
    }
  }

  /** The characters String.prototype.trim removes: WhiteSpace and LineTerminator of ECMAScript. */
  predicate IsJsSpace(c: char) {
    || c == ' ' || c == '\t' || c == '\n' || c == '\r' || c == '\U{B}' || c == '\U{C}'
    || c == '\U{A0}' || c == '\U{1680}' || ('\U{2000}' <= c <= '\U{200A}')
    || c == '\U{2028}' || c == '\U{2029}' || c == '\U{202F}' || c == '\U{205F}'
    || c == '\U{3000}' || c == '\U{FEFF}'
  }

  /** The number of white-space characters at the front of s. */
  function LeadingSpaces(s: string): (k: nat)
    ensures k <= |s|
    ensures forall i :: 0 <= i < k ==> IsJsSpace(s[i])
    ensures k == |s| || !IsJsSpace(s[k])
  {
    if s != [] && IsJsSpace(s[0]) then 1 + LeadingSpaces(s[1..]) else 0
  }

  /** The number of white-space characters at the end of s. */
  function TrailingSpaces(s: string): (k: nat)
    ensures k <= |s|
    ensures forall i :: |s| - k <= i < |s| ==> IsJsSpace(s[i])
    ensures k == |s| || !IsJsSpace(s[|s| - k - 1])
  {
    if s != [] && IsJsSpace(s[|s| - 1]) then 1 + TrailingSpaces(s[..|s| - 1]) else 0
  }

  /** s.trim(): s without its leading and trailing white space. */
  function Trim(s: string): (r: string)
    ensures LeadingSpaces(s) + |r| <= |s|
    ensures r == s[LeadingSpaces(s)..LeadingSpaces(s) + |r|]
    ensures r == [] || (!IsJsSpace(r[0]) && !IsJsSpace(r[|r| - 1]))
    ensures forall i :: 0 <= i < LeadingSpaces(s) ==> IsJsSpace(s[i])
    ensures forall i :: LeadingSpaces(s) + |r| <= i < |s| ==> IsJsSpace(s[i])
    ensures r == [] <==> forall i :: 0 <= i < |s| ==> IsJsSpace(s[i])
  {
    var k := LeadingSpaces(s);
    var t := s[k..];
    var e := TrailingSpaces(t);
    assert forall i :: |t| - e <= i < |t| ==> t[i] == s[k + i];
    t[..|t| - e]
  }

  /** Lexicographic character order on strings; the empty string precedes every other. */
  predicate LexLe(a: string, b: string) {
    a == [] || (b != [] && (a[0] < b[0] || (a[0] == b[0] && LexLe(a[1..], b[1..]))))
  }

  lemma {:induction false} LexLeTotal(a: string, b: string)
    ensures LexLe(a, b) || LexLe(b, a)
  {
    if a != [] && b != [] && a[0] == b[0] {
      LexLeTotal(a[1..], b[1..]);
    }
  }

  lemma {:induction false} LexLeTransitive(a: string, b: string, c: string)
    requires LexLe(a, b) && LexLe(b, c)
    ensures LexLe(a, c)
  {
    if a != [] && b != [] && c != [] && a[0] == b[0] && b[0] == c[0] {
      LexLeTransitive(a[1..], b[1..], c[1..]);
    }
  }
}

=== FILE: timer.dfy ===
/**
 The countdown of focus.js as a step machine. The browser interval becomes an
 explicit `ticking` flag (the interval exists) and each one-second callback an
 explicit Tick. A tick that sees time left takes one second off; the tick that
 sees none clears the interval and reports completion.
 */
module Timer {

  datatype Session = Session(goalSeconds: nat, remaining: int, paused: bool, ticking: bool)

  /** The timer fields of the page state before any session. */
  const Idle := Session(0, 0, false, false)

  predicate WellFormed(s: Session) {
    0 <= s.remaining <= s.goalSeconds
  }

  /** The fields set by showTimer for a new goal, before the interval is started. */
  function Arm(s: Session, goalSeconds: nat): (s': Session)
    ensures s'.goalSeconds == goalSeconds && s'.remaining == goalSeconds && !s'.paused
    ensures s'.ticking == s.ticking && WellFormed(s')
  {
    s.(goalSeconds := goalSeconds, remaining := goalSeconds, paused := false)
  }

  /** startTimer: does nothing while an interval already exists. */
  function Start(s: Session): (s': Session)
    ensures s'.ticking
    ensures s.ticking ==> s' == s
    ensures s'.goalSeconds == s.goalSeconds && s'.remaining == s.remaining && s'.paused == s.paused
  {
    if s.ticking then s else s.(ticking := true)
  }

  /** togglePauseResume. */
  function TogglePause(s: Session): (s': Session)
    ensures s'.paused != s.paused
    ensures s'.goalSeconds == s.goalSeconds && s'.remaining == s.remaining && s'.ticking == s.ticking
  {
    s.(paused := !s.paused)
  }

  /** endSession once confirmed: the interval is cleared and the pause flag reset. */
  function Cancel(s: Session): (s': Session)
    ensures !s'.ticking && !s'.paused
    ensures s'.goalSeconds == s.goalSeconds && s'.remaining == s.remaining
  {
    s.(ticking := false, paused := false)
  }

  datatype Step = Step(session: Session, completed: bool)

  /** One interval callback; with no interval there is no callback and nothing happens. */
  function Tick(s: Session): (st: Step)
    ensures !s.ticking || s.paused ==> st == Step(s, false)
    ensures s.ticking && !s.paused && s.remaining > 0 ==>
      st == Step(s.(remaining := s.remaining - 1), false)
    ensures st.completed <==> s.ticking && !s.paused && s.remaining <= 0
    ensures st.completed ==> !st.session.ticking && st.session.remaining == s.remaining
    ensures WellFormed(s) ==> WellFormed(st.session)
  {
    if !s.ticking || s.paused then Step(s, false)
    else if s.remaining > 0 then Step(s.(remaining := s.remaining - 1), false)
    else Step(s.(ticking := false), true)
  }

  datatype Event = TickEvent | ToggleEvent | CancelEvent

  function StepEvent(s: Session, e: Event): (st: Step)
    ensures e != TickEvent ==> !st.completed
  {
    match e
    case TickEvent => Tick(s)
    case ToggleEvent => Step(TogglePause(s), false)
    case CancelEvent => Step(Cancel(s), false)
  }

  /** Runs a sequence of user and interval events, counting completions. */
  function Run(s: Session, events: seq<Event>): (r: (Session, nat))
    ensures r.1 <= |events|
    decreases |events|
  {
    if events == [] then (s, 0)
    else
      var st := StepEvent(s, events[0]);
      var (s', n) := Run(st.session, events[1..]);
      (s', n + if st.completed then 1 else 0)
  }

  /** n interval callbacks in a row. */
  function Ticks(n: nat): (events: seq<Event>)
    ensures |events| == n && forall i :: 0 <= i < n ==> events[i] == TickEvent
  {
    if n == 0 then [] else [TickEvent] + Ticks(n - 1)
  }

  /**
   Completion happens at most once per started session, whatever the user
   does in between: after it the interval is gone, and only starting a new
   session creates one.
   */
  lemma {:induction false} AtMostOneCompletion(s: Session, events: seq<Event>)
    ensures Run(s, events).1 <= 1
    ensures !s.ticking ==> Run(s, events).1 == 0 && !Run(s, events).0.ticking
    decreases |events|
  {
    if events != [] {
      var st := StepEvent(s, events[0]);
      AtMostOneCompletion(st.session, events[1..]);
    }
  }

  /** A remaining count never drops below zero, whatever the events. */
  lemma {:induction false} RunKeepsWellFormed(s: Session, events: seq<Event>)
    requires WellFormed(s)
    ensures WellFormed(Run(s, events).0)
    decreases |events|
  {
    if events != [] {
      RunKeepsWellFormed(StepEvent(s, events[0]).session, events[1..]);
    }
  }

  /**
   A fresh unpaused session of g seconds takes g ticks to reach zero and
   completes on the next one, which is the tick that observes zero left.
   */
  lemma {:induction false} CountdownCompletes(s: Session, n: nat)
    requires s.ticking && !s.paused && 0 <= s.remaining
    ensures n <= s.remaining ==>
      Run(s, Ticks(n)) == (s.(remaining := s.remaining - n), 0)
    ensures n > s.remaining ==> Run(s, Ticks(n)).1 == 1 && !Run(s, Ticks(n)).0.ticking
    decreases n
  {
    if n > 0 {
      var st := Tick(s);
      assert Ticks(n)[0] == TickEvent && Ticks(n)[1..] == Ticks(n - 1);
      if s.remaining > 0 {
        CountdownCompletes(st.session, n - 1);
      } else {
        AtMostOneCompletion(st.session, Ticks(n - 1));
      }
    }
  }

  /** Ticks while paused are dropped: nothing changes, however many arrive. */
  lemma {:induction false} PausedTicksDropped(s: Session, n: nat)
    requires s.paused
    ensures Run(s, Ticks(n)) == (s, 0)
  {
    if n > 0 {
      assert Ticks(n)[0] == TickEvent && Ticks(n)[1..] == Ticks(n - 1);
      PausedTicksDropped(s, n - 1);
    }
  }

  /** After an end-session, later ticks neither count down nor complete. */
  lemma {:induction false} CancelStopsTicking(s: Session, n: nat)
    ensures Run(Cancel(s), Ticks(n)) == (Cancel(s), 0)
  {
    if n > 0 {
      assert Ticks(n)[0] == TickEvent && Ticks(n)[1..] == Ticks(n - 1);
      CancelStopsTicking(s, n - 1);
    }
  }

  /** The session-length scenario: 1500 seconds, then 1500 ticks reach zero and the 1501st completes. */
  lemma TwentyFiveMinuteSession()
    ensures var s := Start(Arm(Idle, 1500));
      Run(s, Ticks(1500)) == (s.(remaining := 0), 0) && Run(s, Ticks(1501)).1 == 1
  {
    var s := Start(Arm(Idle, 1500));
    CountdownCompletes(s, 1500);
    CountdownCompletes(s, 1501);
  }

  /** Cancelling after 300 ticks: no completion then or afterwards. */
  lemma CancelAfterFiveMinutes(n: nat)
    ensures var s := Start(Arm(Idle, 1500));
      var (after, done) := Run(s, Ticks(300));
      done == 0 && after.remaining == 1200 && Run(Cancel(after), Ticks(n)).1 == 0
  {
    var s := Start(Arm(Idle, 1500));
    CountdownCompletes(s, 300);
    CancelStopsTicking(Run(s, Ticks(300)).0, n);
  }
}

=== FILE: todo.dfy ===
/**
 The task list of todo.js for one date, as pure operations on a sequence of
 tasks. A start time is the time-input string, "" when none was given; tasks
 are kept in ascending start-time order, compared in character order.
 */
module Todo {

  import opened Wrappers
  import Text
  import Arith

  datatype Task = Task(text: string, startTime: string, category: string, priority: string, completed: bool)

  /** The stored lists, keyed by date string. */
  type TaskStore = map<string, seq<Task>>

  /** getTasks: the list stored under the date, or no tasks when the key is absent. */
  function GetTasks(store: TaskStore, date: string): (tasks: seq<Task>)
    ensures date !in store ==> tasks == []
    ensures date in store ==> tasks == store[date]
  {
    if date in store then store[date] else []
  }

  /** saveTasks: overwrites the list of one date. */
  function SaveTasks(store: TaskStore, date: string, tasks: seq<Task>): (store': TaskStore)
    ensures store'.Keys == store.Keys + {date}
    ensures forall d :: d in store && d != date ==> store'[d] == store[d]
    ensures store'[date] == tasks
  {
    store[date := tasks]
  }

  /** Reading back a date just saved gives the saved list; other dates keep theirs. */
  lemma SaveThenGet(store: TaskStore, date: string, tasks: seq<Task>, other: string)
    ensures GetTasks(SaveTasks(store, date, tasks), date) == tasks
    ensures other != date ==> GetTasks(SaveTasks(store, date, tasks), other) == GetTasks(store, other)
  {
  }

  // ----- Ordering by start time -----

  predicate Before(a: Task, b: Task) {
    Text.LexLe(a.startTime, b.startTime)
  }

  predicate Sorted(tasks: seq<Task>) {
    forall i, j :: 0 <= i < j < |tasks| ==> Before(tasks[i], tasks[j])
  }

  /** How many leading tasks start no later than t: where a stable insertion puts t. */
  function InsertionPoint(tasks: seq<Task>, t: Task): (k: nat)
    ensures k <= |tasks|
    ensures forall i :: 0 <= i < k ==> Before(tasks[i], t)
    ensures k < |tasks| ==> !Before(tasks[k], t)
  {
    if tasks == [] || !Before(tasks[0], t) then 0 else 1 + InsertionPoint(tasks[1..], t)
  }

  /** Places t after every leading task that starts no later than it. */
  function Insert(t: Task, tasks: seq<Task>): (r: seq<Task>)
    ensures multiset(r) == multiset(tasks) + multiset{t}
    ensures Sorted(tasks) ==> Sorted(r)
  {
    if tasks == [] then [t]
    else if !Before(tasks[0], t) then
      PrependKeepsSorted(t, tasks);
      [t] + tasks
    else
      var rest := Insert(t, tasks[1..]);
      assert tasks == [tasks[0]] + tasks[1..];
      InsertKeepsSorted(t, tasks, rest);
      [tasks[0]] + rest
  }

  /** Insertion splits the list at the insertion point. */
  lemma {:induction false} InsertShape(t: Task, tasks: seq<Task>)
    ensures Insert(t, tasks) == tasks[..InsertionPoint(tasks, t)] + [t] + tasks[InsertionPoint(tasks, t)..]
  {
    if tasks == [] || !Before(tasks[0], t) {
      InsertAtFront(t, tasks);
    } else {
      InsertShape(t, tasks[1..]);
      InsertShapeStep(t, tasks, InsertionPoint(tasks[1..], t));
    }
  }

  lemma InsertAtFront(t: Task, tasks: seq<Task>)
    requires tasks == [] || !Before(tasks[0], t)
    ensures InsertionPoint(tasks, t) == 0
    ensures Insert(t, tasks) == tasks[..0] + [t] + tasks[0..]
  {
    assert tasks[..0] == [] && tasks[0..] == tasks;
  }

  lemma InsertShapeStep(t: Task, tasks: seq<Task>, k: nat)
    requires tasks != [] && Before(tasks[0], t) && k == InsertionPoint(tasks[1..], t)
    requires Insert(t, tasks[1..]) == tasks[1..][..k] + [t] + tasks[1..][k..]
    ensures Insert(t, tasks) == tasks[..k + 1] + [t] + tasks[k + 1..]
  {
    InsertUnfold(t, tasks);
    SpliceCons(tasks[0], tasks[1..], k, t);
    assert [tasks[0]] + tasks[1..] == tasks;
  }

  lemma InsertUnfold(t: Task, tasks: seq<Task>)
    requires tasks != [] && Before(tasks[0], t)
    ensures Insert(t, tasks) == [tasks[0]] + Insert(t, tasks[1..])
  {
  }

  /** Splicing into a list with one more element in front. */
  lemma SpliceCons<T>(x: T, tail: seq<T>, k: nat, t: T)
    requires k <= |tail|
    ensures [x] + (tail[..k] + [t] + tail[k..]) == ([x] + tail)[..k + 1] + [t] + ([x] + tail)[k + 1..]
  {
    assert ([x] + tail)[..k + 1] == [x] + tail[..k];
    assert ([x] + tail)[k + 1..] == tail[k..];
  }

  lemma PrependKeepsSorted(t: Task, tasks: seq<Task>)
    requires tasks != [] && !Before(tasks[0], t)
    ensures Sorted(tasks) ==> Sorted([t] + tasks)
  {
    Text.LexLeTotal(tasks[0].startTime, t.startTime);
    if Sorted(tasks) {
      var r := [t] + tasks;
      forall j | 1 <= j < |r| ensures Before(r[0], r[j]) {
        if j > 1 {
          Text.LexLeTransitive(t.startTime, tasks[0].startTime, r[j].startTime);
        }
      }
    }
  }

  lemma InsertKeepsSorted(t: Task, tasks: seq<Task>, rest: seq<Task>)
    requires tasks != [] && Before(tasks[0], t)
    requires multiset(rest) == multiset(tasks[1..]) + multiset{t}
    requires Sorted(tasks[1..]) ==> Sorted(rest)
    ensures Sorted(tasks) ==> Sorted([tasks[0]] + rest)
  {
    if Sorted(tasks) {
      var r := [tasks[0]] + rest;
      forall j | 1 <= j < |r| ensures Before(r[0], r[j]) {
        assert r[j] in multiset(rest);
        if r[j] == t {
        } else {
          assert r[j] in multiset(tasks[1..]);
          var k :| 0 <= k < |tasks[1..]| && tasks[1..][k] == r[j];
          assert tasks[k + 1] == r[j];
        }
      }
    }
  }

  /** Array.prototype.sort with the start-time comparator: a stable insertion sort. */
  function SortByStart(tasks: seq<Task>): (r: seq<Task>)
    ensures Sorted(r)
    ensures multiset(r) == multiset(tasks)
  {
    if tasks == [] then []
    else
      var prefix := tasks[..|tasks| - 1];
      assert tasks == prefix + [tasks[|tasks| - 1]];
      Insert(tasks[|tasks| - 1], SortByStart(prefix))
  }

  /** Sorting an already ordered list changes nothing. */
  lemma {:induction false} SortSorted(tasks: seq<Task>)
    requires Sorted(tasks)
    ensures SortByStart(tasks) == tasks
  {
    if tasks != [] {
      var prefix := tasks[..|tasks| - 1];
      var t := tasks[|tasks| - 1];
      assert tasks == prefix + [t];
      SortedPrefix(tasks, prefix, t);
      SortSorted(prefix);
      assert SortByStart(tasks) == Insert(t, prefix);
      InsertAtEnd(t, prefix, tasks);
    }
  }

  lemma SortedPrefix(tasks: seq<Task>, prefix: seq<Task>, t: Task)
    requires Sorted(tasks) && tasks == prefix + [t]
    ensures Sorted(prefix)
    ensures forall i :: 0 <= i < |prefix| ==> Before(prefix[i], t)
  {
    assert forall i :: 0 <= i < |prefix| ==> tasks[i] == prefix[i];
    forall i | 0 <= i < |prefix| ensures Before(prefix[i], t) {
      assert Before(tasks[i], tasks[|prefix|]);
    }
  }

  lemma InsertAtEnd(t: Task, prefix: seq<Task>, tasks: seq<Task>)
    requires tasks == prefix + [t]
    requires forall i :: 0 <= i < |prefix| ==> Before(prefix[i], t)
    ensures Insert(t, prefix) == tasks
  {
    InsertionPointAll(prefix, t);
    InsertShape(t, prefix);
    assert prefix[..|prefix|] == prefix;
  }

  lemma {:induction false} InsertionPointAll(tasks: seq<Task>, t: Task)
    requires forall i :: 0 <= i < |tasks| ==> Before(tasks[i], t)
    ensures InsertionPoint(tasks, t) == |tasks|
  {
    if tasks != [] {
      InsertionPointAll(tasks[1..], t);
    }
  }

  // ----- Handlers -----

  datatype AddError = EmptyText | MissingDate

  /** The task the add button creates: trimmed text, not completed. */
  function NewTask(text: string, startTime: string, category: string, priority: string): (t: Task)
    ensures !t.completed && t.startTime == startTime && t.category == category && t.priority == priority
    ensures t.text == [] || (!Text.IsJsSpace(t.text[0]) && !Text.IsJsSpace(t.text[|t.text| - 1]))
    ensures |t.text| <= |text|
  {
    Task(Text.Trim(text), startTime, category, priority, false)
  }

  /**
   The add button: refuse blank text or a missing date; otherwise append the
   new task and re-sort by start time.
   */
  function AddTask(tasks: seq<Task>, text: string, startTime: string, date: string, category: string, priority: string)
    : (r: Result<seq<Task>, AddError>)
    ensures r.Failure? <==> Text.Trim(text) == [] || date == []
    ensures r.Success? ==>
      && Sorted(r.value)
      && multiset(r.value) == multiset(tasks) + multiset{NewTask(text, startTime, category, priority)}
      && |r.value| == |tasks| + 1
    ensures r.Success? && Sorted(tasks) ==>
      var t := NewTask(text, startTime, category, priority);
      r.value == tasks[..InsertionPoint(tasks, t)] + [t] + tasks[InsertionPoint(tasks, t)..]
  {
    if Text.Trim(text) == [] then Failure(EmptyText)
    else if date == [] then Failure(MissingDate)
    else
      var t := NewTask(text, startTime, category, priority);
      AddSorted(tasks, t);
      Success(SortByStart(tasks + [t]))
  }

  lemma AddSorted(tasks: seq<Task>, t: Task)
    ensures |SortByStart(tasks + [t])| == |tasks| + 1
    ensures Sorted(tasks) ==>
      SortByStart(tasks + [t]) == tasks[..InsertionPoint(tasks, t)] + [t] + tasks[InsertionPoint(tasks, t)..]
  {
    var r := SortByStart(tasks + [t]);
    assert |r| == |multiset(r)| == |multiset(tasks + [t])| == |tasks + [t]|;
    assert (tasks + [t])[..|tasks|] == tasks;
    assert r == Insert(t, SortByStart(tasks));
    if Sorted(tasks) {
      SortSorted(tasks);
      InsertShape(t, tasks);
    }
  }

  /**
   The worked example: tasks starting "09:00", "" and "07:30", added in that
   order, end up ordered "", "07:30", "09:00".
   */
  lemma AddOrderExample(date: string)
    requires date != []
    ensures AddTask([], "a", "09:00", date, "Work", "low") == Success([NineAm])
    ensures AddTask([NineAm], "b", "", date, "Work", "low") == Success([Untimed, NineAm])
    ensures AddTask([Untimed, NineAm], "c", "07:30", date, "Work", "low")
      == Success([Untimed, HalfSeven, NineAm])
  {
    AddFirst(date);
    AddUntimed(date);
    AddHalfSeven(date);
  }

  const NineAm := Task("a", "09:00", "Work", "low", false)
  const Untimed := Task("b", "", "Work", "low", false)
  const HalfSeven := Task("c", "07:30", "Work", "low", false)

  lemma AddFirst(date: string)
    requires date != []
    ensures AddTask([], "a", "09:00", date, "Work", "low") == Success([NineAm])
  {
    TrimLetter('a');
    AddToEmpty("a", "09:00", date, "Work", "low");
  }

  /** One letter is its own trim. */
  lemma TrimLetter(c: char)
    requires 'a' <= c <= 'z'
    ensures Text.Trim([c]) == [c]
  {
    assert !Text.IsJsSpace(c);
    assert Text.LeadingSpaces([c]) == 0;
  }

  lemma AddToEmpty(text: string, startTime: string, date: string, category: string, priority: string)
    requires Text.Trim(text) == text != [] && date != []
    ensures AddTask([], text, startTime, date, category, priority)
      == Success([NewTask(text, startTime, category, priority)])
  {
    AddStep([], text, startTime, date, category, priority);
  }

  lemma AddUntimed(date: string)
    requires date != []
    ensures AddTask([NineAm], "b", "", date, "Work", "low") == Success([Untimed, NineAm])
  {
    TrimLetter('b');
    UntimedGoesFirst();
    AddStep([NineAm], "b", "", date, "Work", "low");
    assert [NineAm][..0] + [Untimed] + [NineAm][0..] == [Untimed, NineAm];
  }

  lemma UntimedGoesFirst()
    ensures InsertionPoint([NineAm], Untimed) == 0
  {
    assert !Before(NineAm, Untimed);
  }

  lemma AddHalfSeven(date: string)
    requires date != []
    ensures AddTask([Untimed, NineAm], "c", "07:30", date, "Work", "low")
      == Success([Untimed, HalfSeven, NineAm])
  {
    ExampleSorted();
    ExampleInsertionPoint();
    ExampleTrim();
    AddStep([Untimed, NineAm], "c", "07:30", date, "Work", "low");
    assert [Untimed, NineAm][..1] + [HalfSeven] + [Untimed, NineAm][1..] == [Untimed, HalfSeven, NineAm];
  }

  lemma ExampleSorted()
    ensures Sorted([Untimed, NineAm])
  {
  }

  lemma ExampleInsertionPoint()
    ensures InsertionPoint([Untimed, NineAm], HalfSeven) == 1
  {
    assert !Text.LexLe("09:00", "07:30");
    assert [Untimed, NineAm][1..] == [NineAm];
  }

  lemma ExampleTrim()
    ensures Text.Trim("c") == "c" && NewTask("c", "07:30", "Work", "low") == HalfSeven
  {
    TrimLetter('c');
  }

  lemma AddStep(tasks: seq<Task>, text: string, startTime: string, date: string, category: string, priority: string)
    requires Text.Trim(text) == text != [] && date != [] && Sorted(tasks)
    ensures var t := NewTask(text, startTime, category, priority);
      AddTask(tasks, text, startTime, date, category, priority)
        == Success(tasks[..InsertionPoint(tasks, t)] + [t] + tasks[InsertionPoint(tasks, t)..])
  {
  }

  /** The clear-completed button: keep the tasks not yet done. */
  function ClearCompleted(tasks: seq<Task>): (r: seq<Task>)
    ensures |r| <= |tasks|
    ensures forall i :: 0 <= i < |r| ==> !r[i].completed
    ensures forall t :: t in tasks && !t.completed <==> t in r
  {
    if tasks == [] then []
    else
      var rest := ClearCompleted(tasks[1..]);
      assert forall t :: t in tasks <==> t == tasks[0] || t in tasks[1..];
      if tasks[0].completed then rest else [tasks[0]] + rest
  }

  /** Deleting at an index (splice(index, 1)); an index past the end removes nothing. */
  function Delete(tasks: seq<Task>, i: nat): (r: seq<Task>)
    ensures i < |tasks| ==> |r| == |tasks| - 1
    ensures i < |tasks| ==> forall k :: 0 <= k < i ==> r[k] == tasks[k]
    ensures i < |tasks| ==> forall k :: i <= k < |r| ==> r[k] == tasks[k + 1]
    ensures i >= |tasks| ==> r == tasks
  {
    if i < |tasks| then tasks[..i] + tasks[i + 1..] else tasks
  }

  /** Clicking a task or its checkbox: flip that task's completed flag and nothing else. */
  function Toggle(tasks: seq<Task>, i: nat): (r: seq<Task>)
    ensures |r| == |tasks|
    ensures forall k :: 0 <= k < |tasks| && k != i ==> r[k] == tasks[k]
    ensures i < |tasks| ==> r[i].completed == !tasks[i].completed
    ensures i < |tasks| ==> r[i].(completed := tasks[i].completed) == tasks[i]
  {
    if i < |tasks| then tasks[i := tasks[i].(completed := !tasks[i].completed)] else tasks
  }

  /** Toggling the same task twice restores the list. */
  lemma ToggleTwice(tasks: seq<Task>, i: nat)
    ensures Toggle(Toggle(tasks, i), i) == tasks
  {
  }

  /** The handlers that change a list all keep it in start-time order. */
  lemma HandlersKeepOrder(tasks: seq<Task>, i: nat)
    requires Sorted(tasks)
    ensures Sorted(Toggle(tasks, i)) && Sorted(Delete(tasks, i)) && Sorted(ClearCompleted(tasks))
  {
    var d := Delete(tasks, i);
    if i < |tasks| {
      forall a, b | 0 <= a < b < |d| ensures Before(d[a], d[b]) {
        var a' := if a < i then a else a + 1;
        var b' := if b < i then b else b + 1;
        assert d[a] == tasks[a'] && d[b] == tasks[b'];
      }
    }
    ClearKeepsOrder(tasks);
  }

  lemma {:induction false} ClearKeepsOrder(tasks: seq<Task>)
    requires Sorted(tasks)
    ensures Sorted(ClearCompleted(tasks))
  {
    if tasks != [] {
      ClearKeepsOrder(tasks[1..]);
      var rest := ClearCompleted(tasks[1..]);
      forall j | 0 <= j < |rest| ensures Before(tasks[0], rest[j]) {
        assert rest[j] in rest;
        var k :| 0 <= k < |tasks[1..]| && tasks[1..][k] == rest[j];
        assert tasks[k + 1] == rest[j];
      }
    }
  }

  // ----- Filtered view and counts -----

  datatype Filter = All | Active | Completed

  /** The two early returns of the render loop. */
  predicate Shown(t: Task, f: Filter) {
    !(f == Active && t.completed) && !(f == Completed && !t.completed)
  }

  /** The positions of the tasks the list shows, in list order. */
  function View(tasks: seq<Task>, f: Filter): (v: seq<nat>)
    ensures forall k :: 0 <= k < |v| ==> v[k] < |tasks| && Shown(tasks[v[k]], f)
    ensures forall k, l :: 0 <= k < l < |v| ==> v[k] < v[l]
  {
    if tasks == [] then []
    else
      var prefix := tasks[..|tasks| - 1];
      var v := View(prefix, f);
      if Shown(tasks[|tasks| - 1], f) then v + [|tasks| - 1] else v
  }

  /** Every task the filter lets through is shown. */
  lemma {:induction false} ViewComplete(tasks: seq<Task>, f: Filter, i: nat)
    requires i < |tasks| && Shown(tasks[i], f)
    ensures i in View(tasks, f)
  {
    var prefix := tasks[..|tasks| - 1];
    if i < |tasks| - 1 {
      assert prefix[i] == tasks[i];
      ViewComplete(prefix, f, i);
    }
  }

  /** The tasks at the positions of a view. */
  function Pick(tasks: seq<Task>, v: seq<nat>): (r: seq<Task>)
    requires forall k :: 0 <= k < |v| ==> v[k] < |tasks|
    ensures |r| == |v| && forall k :: 0 <= k < |v| ==> r[k] == tasks[v[k]]
  {
    if v == [] then [] else [tasks[v[0]]] + Pick(tasks, v[1..])
  }

  /** "All" shows every task in order. */
  lemma {:induction false} ViewAll(tasks: seq<Task>)
    ensures Pick(tasks, View(tasks, All)) == tasks
  {
    if tasks != [] {
      var prefix, last := tasks[..|tasks| - 1], tasks[|tasks| - 1];
      assert prefix + [last] == tasks;
      ViewAll(prefix);
      ViewSnoc(prefix, last, All);
    }
  }

  /** "Active" shows exactly what clear-completed keeps, in the same order. */
  lemma {:induction false} ViewActive(tasks: seq<Task>)
    ensures Pick(tasks, View(tasks, Active)) == ClearCompleted(tasks)
  {
    if tasks != [] {
      var prefix, last := tasks[..|tasks| - 1], tasks[|tasks| - 1];
      assert prefix + [last] == tasks;
      ViewActive(prefix);
      ViewSnoc(prefix, last, Active);
      ClearSnoc(prefix, last);
    }
  }

  /** "Completed" shows as many tasks as are done. */
  lemma {:induction false} ViewCompletedCount(tasks: seq<Task>)
    ensures |View(tasks, Completed)| == DoneCount(tasks)
  {
    if tasks != [] {
      var prefix := tasks[..|tasks| - 1];
      var last := tasks[|tasks| - 1];
      ViewCompletedCount(prefix);
      DoneSnoc(prefix, last);
      assert tasks == prefix + [last];
    }
  }

  lemma {:induction false} DoneSnoc(tasks: seq<Task>, t: Task)
    ensures DoneCount(tasks + [t]) == DoneCount(tasks) + (if t.completed then 1 else 0)
  {
    if tasks == [] {
      assert [] + [t] == [t];
    } else {
      assert (tasks + [t])[1..] == tasks[1..] + [t];
      DoneSnoc(tasks[1..], t);
    }
  }

  /** Appending a task appends it to the view exactly when the filter shows it. */
  lemma ViewSnoc(prefix: seq<Task>, last: Task, f: Filter)
    ensures Pick(prefix + [last], View(prefix + [last], f))
         == Pick(prefix, View(prefix, f)) + (if Shown(last, f) then [last] else [])
  {
    var tasks := prefix + [last];
    assert tasks[..|tasks| - 1] == prefix;
    var v := View(prefix, f);
    PickPrefix(tasks, v);
    if Shown(last, f) {
      PickSnoc(tasks, v, |tasks| - 1);
    }
  }

  lemma PickSnoc(tasks: seq<Task>, v: seq<nat>, i: nat)
    requires i < |tasks| && forall k :: 0 <= k < |v| ==> v[k] < |tasks|
    ensures Pick(tasks, v + [i]) == Pick(tasks, v) + [tasks[i]]
  {
  }

  lemma PickPrefix(tasks: seq<Task>, v: seq<nat>)
    requires tasks != [] && forall k :: 0 <= k < |v| ==> v[k] < |tasks| - 1
    ensures Pick(tasks, v) == Pick(tasks[..|tasks| - 1], v)
  {
  }

  lemma {:induction false} ClearSnoc(tasks: seq<Task>, t: Task)
    ensures ClearCompleted(tasks + [t]) == ClearCompleted(tasks) + (if t.completed then [] else [t])
  {
    if tasks == [] {
      assert [] + [t] == [t];
    } else {
      assert (tasks + [t])[1..] == tasks[1..] + [t];
      ClearSnoc(tasks[1..], t);
    }
  }

  /** The number of completed tasks. */
  function DoneCount(tasks: seq<Task>): (n: nat)
    ensures n <= |tasks|
    ensures n == |tasks| <==> forall i :: 0 <= i < |tasks| ==> tasks[i].completed
    ensures n == 0 <==> forall i :: 0 <= i < |tasks| ==> !tasks[i].completed
  {
    if tasks == [] then 0
    else (if tasks[0].completed then 1 else 0) + DoneCount(tasks[1..])
  }

  /** Clearing completed tasks leaves exactly the pending ones. */
  lemma {:induction false} ClearLeavesPending(tasks: seq<Task>)
    ensures |ClearCompleted(tasks)| == |tasks| - DoneCount(tasks)
  {
    if tasks != [] {
      ClearLeavesPending(tasks[1..]);
    }
  }

  datatype Stats = Stats(total: nat, done: nat, pending: nat, percent: nat)

  /** Math.round(done / total * 100) in exact arithmetic: round half up. */
  function RoundPercent(done: nat, total: nat): (p: nat)
    requires 0 < total && done <= total
    ensures 2 * total * p <= 200 * done + total < 2 * total * (p + 1)
    ensures p <= 100
    ensures done == 0 ==> p == 0
    ensures done == total ==> p == 100
  {
    var p := (200 * done + total) / (2 * total);
    RoundBounds(200 * done + total, 2 * total, p);
    PercentRange(done, total, p);
    p
  }

  lemma RoundBounds(n: nat, d: nat, q: nat)
    requires d > 0 && q == n / d
    ensures d * q <= n < d * (q + 1)
  {
  }

  lemma PercentRange(done: nat, total: nat, p: nat)
    requires 0 < total && done <= total
    requires 2 * total * p <= 200 * done + total < 2 * total * (p + 1)
    ensures p <= 100
    ensures done == 0 ==> p == 0
    ensures done == total ==> p == 100
  {
    var a := 2 * total;
    assert a * p < a * 101 by {
      assert 200 * done + total <= 201 * total;
    }
    Arith.MulCancel(a, p, 101);
    if done == 0 {
      assert a * p < a * 1;
      Arith.MulCancel(a, p, 1);
    }
    if done == total {
      assert a * 100 < a * (p + 1);
      Arith.MulCancel(a, 100, p + 1);
    }
  }

  /** The progress bar and the three counters under the list. */
  function StatsOf(tasks: seq<Task>): (s: Stats)
    ensures s.total == |tasks| && s.done + s.pending == s.total
    ensures s.done == DoneCount(tasks)
    ensures s.percent <= 100
    ensures |tasks| == 0 ==> s.percent == 0
    ensures s.done == 0 ==> s.percent == 0
    ensures 0 < |tasks| && s.done == |tasks| ==> s.percent == 100
    ensures 0 < |tasks| ==> 2 * |tasks| * s.percent <= 200 * s.done + |tasks| < 2 * |tasks| * (s.percent + 1)
  {
    var done := DoneCount(tasks);
    var percent := if |tasks| > 0 then RoundPercent(done, |tasks|) else 0;
    Stats(|tasks|, done, |tasks| - done, percent)
  }

  /** A third of the list done shows 33 percent; two thirds shows 67. */
  lemma PercentRounding()
    ensures RoundPercent(1, 3) == 33 && RoundPercent(2, 3) == 67 && RoundPercent(1, 8) == 13
  {
  }
}

=== FILE: wrappers.dfy ===
/** Failure-carrying results shared by the focus and to-do models. */
module Wrappers {

  datatype Option<+T> = None | Some(value: T)

  datatype Result<+R, +E> = Success(value: R) | Failure(error: E)
}
